=== FILE: README.md ===
# NF1 organoid image preprocessing, modelled in Dafny

This project models the file-handling core of the NF1 2D organoid profiling
pipeline. It covers three preprocessing scripts:

- **The renamers.** They clean up patient-specific directory and file names
  before restructuring:
  - NF0014 cuts every directory name at its first `" ("`;
  - NF0016 and NF0018 drop `" (60X)"` from every entry inside each
    directory, then from the directories themselves.
- **The restructurer.** It checks every well directory of a dataset for a
  consistent field/well layout. It checks every nested directory for
  images and for equal per-channel image counts. It then copies the
  qualifying images, minus tiles, flat into `dest/<well name>/`.
- **The z projector.** It finds every `*.tif` below a patient's z-stack
  directory and takes the per-pixel maximum over axis 0 of each stack. It
  writes the result to `zmax_proj/<input's directory name>/<input's file
  name>`.

A directory tree is an immutable value, `Tree.Entry = File(name) |
Dir(name, children)`. A `Tree.Located` pairs an entry with its path
components and stands for a `pathlib.Path`.

- `iterdir()` is a listing in order.
- `rglob("*")` is `Tree.Walk`. It yields a directory's whole listing,
  directories as well as files, before anything below it. It then
  traverses the subdirectories in listing order.
- `PurePath.Suffix` and `PurePath.Stem` follow `pathlib`'s rule: the last
  dot, provided it is neither the first nor the last character.
- Python's substring test, `str.replace(tok, '')`, `split(sep)[0]` and
  `split(c)[-1]` are `Strings.Contains`, `Strings.RemoveAll`,
  `Strings.CutAt` and `Strings.AfterLast`.

Copies and renames are modelled as the target names they compute. A
restructuring run is the list of `Restructure.Copy(source, target)` it
performs. A rename pass is the list of `Rename.Rename` operations it
performs on an abstract filesystem. That filesystem maps each top-level
directory to the names of its entries.

Files and modules:

- `optional.dfy`: `Optional`
- `strings.dfy`: `Strings`
- `purepath.dfy`: `PurePath`
- `tree.dfy`: `Tree`
- `order.dfy`: `Order`, the sort order of paths
- `restructure.dfy`: `Restructure`
- `rename.dfy`: `Rename`
- `projection.dfy`: `Projection`

## Behaviour worth knowing

- Renaming files before directories is safe. The rename passes list every
  path before the first rename and rename entries before their
  directories. The other order would invalidate the listed paths
  (`Rename.DirsFirstFails`).
- The image test looks at every entry `rglob("*")` yields, directories
  included. It does not look at files only.
- The projector selects names ending in `.tif`, case-sensitively.
  `.tiff` and `.TIF` are not projected, and a directory named `x.tif` is
  selected.
- A file renamed onto the name of an existing file replaces that file, as
  `os.rename` does on POSIX systems.
- A rename fails when its new name names no entry of the directory: ""
  or ".", which `pathlib` drops so that the target is the parent
  directory itself, or "..", the parent's parent. An entry or directory named exactly ` (60X)` therefore
  stops its pass (`Rename.TagOnlyVanishes`).
- The NF0014 rule is not idempotent when the kept part itself has a
  suffix, that is a dot at an inner position: `a.b (x).c` becomes `a`
  only on the second pass. `Rename.TrimQualifierTwice` gives the exact
  condition.

## Model

| member | source | states |
|---|---|---|
| Tree.SubDirs | 0.preprocessing_data/scripts/1.update_file_structure.py:147 | The subdirectories of a listing are exactly its directory children. Each is located under the listed directory, and none is a file. |
| Tree.Listing | 0.preprocessing_data/scripts/1.update_file_structure.py:147 | `iterdir()` yields one located entry per child, in order, each at the directory's path extended by its name. |
| Tree.Walk | 0.preprocessing_data/scripts/1.update_file_structure.py:171 | The traversal begins with the whole listing of the scanned directory, in order. Every path it yields extends the scanned directory and ends in the entry's own name. Everything a subdirectory's traversal yields is yielded too, and nothing outside the tree (`Tree.InTree`) is yielded. |
| Tree.WalkIsTree | 0.preprocessing_data/scripts/1.update_file_structure.py:171 | An entry is yielded by the traversal exactly when it is an entry of the tree: a child of the directory or an entry of a subdirectory's tree. |
| Tree.WalkDistinct | 0.preprocessing_data/scripts/1.update_file_structure.py:171 | In a tree whose listings have no name twice, the traversal yields every entry exactly once. |
| Tree.DescendantPath | 0.preprocessing_data/scripts/1.update_file_structure.py:225 | Every descendant's path lies strictly below its ancestor's and ends in its own name. |
| PurePath.Suffix | 0.preprocessing_data/scripts/1.update_file_structure.py:171 | A suffix is empty, or a dot followed by dot-free text. Stem and suffix together give back the name. |
| PurePath.SuffixAt | 0.preprocessing_data/scripts/1.update_file_structure.py:192 | A name whose last dot is at an inner position `k` has suffix `name[k..]` and stem `name[..k]`. |
| PurePath.Stem | 0.preprocessing_data/scripts/1.update_file_structure.py:338 | `PurePath.stem` is a prefix of the name. Together with the suffix it gives back the name (`PurePath.Suffix`), and `PurePath.SuffixAt` pins it down to `name[..k]` when the last dot is at an inner position `k`. |
| Strings.ContainsIffOccursAt | 0.preprocessing_data/scripts/1.update_file_structure.py:195 | The substring test holds exactly when the token starts at some position of the name. |
| Strings.RemoveAll | 0.preprocessing_data/scripts/1.update_file_structure.py:338 | Removing a token never lengthens a text. It shortens it by at least the token's length when the token occurs, and leaves it unchanged exactly when the token is absent. |
| Strings.CutAt | 0.preprocessing_data/scripts/0.patient_specific_preprocessing.py:66 | The cut text is a prefix in which the separator starts nowhere. Anything after it starts with the separator. |
| Strings.CutAtLacksSeparator | 0.preprocessing_data/scripts/0.patient_specific_preprocessing.py:66 | The cut text never contains the separator. |
| Strings.CutAtWhole | 0.preprocessing_data/scripts/0.patient_specific_preprocessing.py:66 | Cutting returns the whole text exactly when the separator is absent. |
| Strings.CutAtIdempotent | 0.preprocessing_data/scripts/0.patient_specific_preprocessing.py:66 | Cutting twice is cutting once. |
| Strings.AfterLast | 1.max_projection/scripts/0.cp_max_projection.py:68 | `split(c)[-1]` is the longest tail free of `c`. It is preceded by `c` unless it is the whole text. |
| Restructure.ImageByEnding | 0.preprocessing_data/scripts/1.update_file_structure.py:170-172 | An entry is an image exactly when its name, lower-cased from an inner position on, reads `.tif` or `.tiff`. So `A01.TIF` counts and `.tif` and `x.tif.bak` do not. |
| Restructure.IsImage | 0.preprocessing_data/scripts/1.update_file_structure.py:171 | The image test. Its meaning is stated by `Restructure.ImageByEnding`. |
| Restructure.HasConsistentNaming | 0.preprocessing_data/scripts/1.update_file_structure.py:134-158 | True exactly when the well has a subdirectory and every subdirectory holds a directory named like the well. Plain files play no part. |
| Restructure.IsImageFolderEmpty | 0.preprocessing_data/scripts/1.update_file_structure.py:161-172 | True exactly when no entry anywhere below the directory, file or directory, is an image. |
| Restructure.AddingImageMakesNonEmpty | 0.preprocessing_data/scripts/1.update_file_structure.py:170-172 | Adding one image to a directory's listing makes it non-empty. |
| Restructure.CountChannelExtend | 0.preprocessing_data/scripts/1.update_file_structure.py:191-197 | One more entry raises a token's count by one exactly when it is an image whose name contains the token. Non-images never count, and a name with several tokens counts for each. |
| Restructure.CountChannel | 0.preprocessing_data/scripts/1.update_file_structure.py:191-197 | The count loop for one channel. It never exceeds the number of entries; `Restructure.CountChannelExtend` and `Restructure.CountedImpliesImage` state what it counts. |
| Restructure.CountedImpliesImage | 0.preprocessing_data/scripts/1.update_file_structure.py:191-197 | A positive channel count is witnessed by an image whose name carries the token. |
| Restructure.SingleCountIffBalanced | 0.preprocessing_data/scripts/1.update_file_structure.py:199-203 | The set of counts is a single non-zero value exactly when there is a channel, all channels count alike, and every count is positive. |
| Restructure.EqualChannelsMeaning | 0.preprocessing_data/scripts/1.update_file_structure.py:175-203 | `has_equal_images_per_channel` accepts exactly the balanced directories, so an empty channel set is rejected. |
| Restructure.EqualChannelsNotEmpty | 0.preprocessing_data/scripts/1.update_file_structure.py:161-203 | A directory that passes the channel check is never image-empty. |
| Restructure.HasEqualImagesPerChannel | 0.preprocessing_data/scripts/1.update_file_structure.py:175-203 | The channel check. `Restructure.EqualChannelsMeaning` states when it accepts, and `Restructure.SingleCountIffBalanced` states what its set of counts means. |
| Restructure.CheckNested | 0.preprocessing_data/scripts/1.update_file_structure.py:214-222 | The three checks of a nested directory, in order. `Restructure.NestedSkips` states each skip reason. |
| Restructure.NestedSkips | 0.preprocessing_data/scripts/1.update_file_structure.py:214-222 | Each skip reason holds exactly when its condition on the contents holds and the earlier checks passed. The directory passes exactly when it is a balanced directory. |
| Restructure.FileNotADirectory | 0.preprocessing_data/scripts/1.update_file_structure.py:215-216 | A plain file given as a nested directory is skipped as not a directory. |
| Restructure.CopyStage | 0.preprocessing_data/scripts/1.update_file_structure.py:225-227 | The copy loop. `Restructure.CopyStageCopies` states what it copies and where it stops. |
| Restructure.CopyCandidates | 0.preprocessing_data/scripts/1.update_file_structure.py:225-226 | The filter of the copy loop: exactly the traversed entries that are images without `Tile` in their name. `Restructure.CopyCandidatesAppend` shows it keeps traversal order. |
| Restructure.CopyCandidatesAppend | 0.preprocessing_data/scripts/1.update_file_structure.py:225-226 | Selecting the wanted entries keeps traversal order: selecting from two traversals in a row is selecting from each in turn. |
| Restructure.CopyStageCopies | 0.preprocessing_data/scripts/1.update_file_structure.py:225-227 | The copy loop never skips. Only plain files among the wanted entries are copied, each to `dest_well/<name>`. The copy fails exactly when a wanted entry is a directory. Without a directory, the copies are the wanted entries, one each, in order. Otherwise they are exactly the files before the first directory, in order, and the failure names that directory. |
| Restructure.NestedCopies | 0.preprocessing_data/scripts/1.update_file_structure.py:214-229 | A nested directory is skipped exactly when one of the checks fails, with that check's reason. It is copied from exactly when it is a directory whose channels are balanced. Without a failure, every wanted image (image, no `Tile` in the name) below it is copied flat, in traversal order, and nothing else is. A failure stops at the first wanted directory, after copying exactly the wanted files before it. |
| Restructure.ProcessNestedDir | 0.preprocessing_data/scripts/1.update_file_structure.py:214-229 | `process_nested_dir`. `Restructure.NestedSkips`, `Restructure.NestedCopies` and `Restructure.NestedCopiesFlat` state its behaviour. |
| Restructure.NestedCopiesFlat | 0.preprocessing_data/scripts/1.update_file_structure.py:225-227 | Every copy reads a path below the nested directory and writes `dest_well/<source name>`. |
| Restructure.ProcessChildren | 0.preprocessing_data/scripts/1.update_file_structure.py:240-247 | Children are processed in listing order, each exactly once, until a copy raises. A shortened run ends at a failed copy. |
| Restructure.WellSkip | 0.preprocessing_data/scripts/1.update_file_structure.py:233-235 | A well is skipped exactly when it has no subdirectory or a subdirectory lacks the well-named directory. A skipped well copies nothing. |
| Restructure.ProcessWellDir | 0.preprocessing_data/scripts/1.update_file_structure.py:233-247 | `process_well_dir`. `Restructure.WellSkip`, `Restructure.WellVisitsEveryChild` and `Restructure.WellCopiesFlat` state its behaviour. |
| Restructure.WellVisitsEveryChild | 0.preprocessing_data/scripts/1.update_file_structure.py:237-247 | A consistent well gets `dest_dir/<well name>`. Without a failed copy every child is processed, and plain-file children are skipped as not a directory. |
| Restructure.WellCopiesFlat | 0.preprocessing_data/scripts/1.update_file_structure.py:237-247 | Everything a well copies comes from below the well and lands in `dest_dir/<well name>/<source name>`. |
| Restructure.DeliverLastWins | 0.preprocessing_data/scripts/1.update_file_structure.py:225-227 | After the copies, a destination path holds the source of the last copy written to it. Same-named images overwrite each other. |
| Restructure.Deliver | 0.preprocessing_data/scripts/1.update_file_structure.py:225-227 | What the copies leave in the destination: one entry for each path some copy targets, and no other. `Restructure.DeliverLastWins` states which source each holds. |
| Restructure.DeliverAppend | 0.preprocessing_data/scripts/1.update_file_structure.py:241-247 | Two batches of copies in a row leave the second batch's result over the first's. |
| Restructure.DeliverCommutes | 0.preprocessing_data/scripts/1.update_file_structure.py:269-276 | Batches with disjoint targets give the same destination in either order. |
| Restructure.ProcessDataset | 0.preprocessing_data/scripts/1.update_file_structure.py:262-276 | A dataset is skipped exactly when its parent holds no directory. Otherwise every directory is processed as a well. |
| Restructure.WellsWriteDisjointTargets | 0.preprocessing_data/scripts/1.update_file_structure.py:269-276 | Two different wells never write the same path, so the pool's order does not change the destination. |
| Rename.StripTag | 0.preprocessing_data/scripts/1.update_file_structure.py:338 | Dropping the tag never lengthens a name, and leaves it unchanged exactly when the tag is absent. |
| Rename.NF0018FileName | 0.preprocessing_data/scripts/1.update_file_structure.py:338 | The NF0018 entry rule. `Rename.NF0018Unchanged` and `Rename.NF0018KeepsSuffix` state its behaviour. |
| Rename.NF0016FileName | 0.preprocessing_data/scripts/1.update_file_structure.py:304 | The NF0016 entry rule as written. `Rename.NF0016DoubleDot` and `Rename.NF0016Example` state its behaviour. |
| Rename.TaggedDirName | 0.preprocessing_data/scripts/1.update_file_structure.py:309-314 | The directory rule of both tag passes: the stem without the tag. `Rename.TagOnlyVanishes` and `Rename.PassesSucceed` state its behaviour. |
| Rename.NF0018Unchanged | 0.preprocessing_data/scripts/1.update_file_structure.py:336-340 | The NF0018 entry rule leaves a name unchanged exactly when its stem lacks the tag. |
| Rename.NF0018KeepsSuffix | 0.preprocessing_data/scripts/1.update_file_structure.py:338 | For a name with a suffix whose stem is more than the tag (the lemma requires `StripTag(Stem(name)) != ""`), the NF0018 entry rule keeps the suffix, and the new stem is the old stem without the tag. A stem that is only the tag is excluded because the property fails there: ` (60X).tif` becomes the hidden name `.tif`, which has no suffix. |
| Rename.NF0016DoubleDot | 0.preprocessing_data/scripts/1.update_file_structure.py:302-306 | The NF0016 entry rule keeps the suffix but gives a stem ending in an extra dot, so it never agrees with the NF0018 rule on a name with a suffix. |
| Rename.NF0016Example | 0.preprocessing_data/scripts/1.update_file_structure.py:304 | `A01 (60X).tif` becomes `A01..tif` under NF0016 and `A01.tif` under NF0018. |
| Rename.TrimQualifier | 0.preprocessing_data/scripts/0.patient_specific_preprocessing.py:64-67 | The new directory name is a prefix of the old stem and contains no `" ("`. |
| Rename.TrimQualifierUnchanged | 0.preprocessing_data/scripts/0.patient_specific_preprocessing.py:66 | A name is left unchanged exactly when it has neither a suffix nor `" ("`. |
| Rename.TrimQualifierTwice | 0.preprocessing_data/scripts/0.patient_specific_preprocessing.py:66 | Applying the rule twice equals applying it once exactly when the first result has no suffix. |
| Rename.TrimQualifierExample | 0.preprocessing_data/scripts/0.patient_specific_preprocessing.py:66 | `B2 (Plate 1)` becomes `B2`. |
| Rename.TagOnlyVanishes | 0.preprocessing_data/scripts/1.update_file_structure.py:302-314 | A name that is only ` (60X)` gets a vanishing name from every tag rule: "" from the NF0018 and directory rules, "." from the NF0016 rule. |
| Rename.DotDotDirName | 0.preprocessing_data/scripts/1.update_file_structure.py:345 | The directory rule turns `. (60X).` into `..`, which names the root's parent, so the rename fails. |
| Rename.PrefixLacks | 0.preprocessing_data/scripts/0.patient_specific_preprocessing.py:66 | A prefix of a text free of a token is free of it, which keeps a dropped suffix from bringing back a `" ("`. |
| Rename.Apply | 0.preprocessing_data/scripts/1.update_file_structure.py:306 | A rename succeeds exactly when its source still exists and its new name is none of "", "." and "..". An entry rename removes the old name from its directory and adds the new one, and leaves the other directories alone. A directory rename moves the entry names to the new name, and leaves the other directories alone. |
| Rename.ApplyAll | 0.preprocessing_data/scripts/1.update_file_structure.py:302-314 | The rename loops, stopping at the first rename that raises. `Rename.ApplyAllAppend`, `Rename.VanishingFails` and `Rename.FilesBeforeDirsSucceeds` state its behaviour. |
| Rename.ApplyAllAppend | 0.preprocessing_data/scripts/1.update_file_structure.py:302-314 | Two batches of renames in a row: the second starts from where the first ended, and nothing happens after the first fails. |
| Rename.VanishingFails | 0.preprocessing_data/scripts/1.update_file_structure.py:306 | A batch of renames holding one with a vanishing new name fails. |
| Rename.SnapshotListsEntries | 0.preprocessing_data/scripts/1.update_file_structure.py:290-295 | The listing taken before any rename holds every directory with exactly its entries. |
| Rename.ChildRenames | 0.preprocessing_data/scripts/1.update_file_structure.py:293-306 | The entry stage renames entries of root directories only, each within its own directory, by the rule. Every entry of every root directory, file or subdirectory, is renamed. |
| Rename.DirRenames | 0.preprocessing_data/scripts/0.patient_specific_preprocessing.py:57-69 | Every directory of the root, and nothing else, is renamed within the root by the rule. |
| Rename.NF0014Plan | 0.preprocessing_data/scripts/0.patient_specific_preprocessing.py:57-69 | The NF0014 pass. `Rename.PassesSucceed` states when it succeeds. |
| Rename.TagPlan | 0.preprocessing_data/scripts/1.update_file_structure.py:322-348 | The NF0018 pass, and the NF0016 pass corrected. `Rename.PassesSucceed` states when it succeeds. |
| Rename.NF0016PlanAsWritten | 0.preprocessing_data/scripts/1.update_file_structure.py:288-314 | The NF0016 pass as written. `Rename.PassesSucceed` states when it succeeds. |
| Rename.OnlyDirectoriesRenamed | 0.preprocessing_data/scripts/0.patient_specific_preprocessing.py:57-58 | No directory-stage rename touches a plain file of the root. |
| Rename.RenamesInSucceed | 0.preprocessing_data/scripts/1.update_file_structure.py:302-306 | Renaming the listed entries of one directory always finds them and leaves the other directories alone. |
| Rename.ChildStageSucceeds | 0.preprocessing_data/scripts/1.update_file_structure.py:302-306 | The entry stage finds every listed entry and keeps the set of directories. |
| Rename.DirStageSucceeds | 0.preprocessing_data/scripts/1.update_file_structure.py:308-314 | The directory stage finds every listed directory. |
| Rename.DirStageOnly | 0.preprocessing_data/scripts/0.patient_specific_preprocessing.py:64-69 | A directory stage on its own performs every planned rename exactly when no directory gets a vanishing name. |
| Rename.FilesBeforeDirsSucceeds | 0.preprocessing_data/scripts/1.update_file_structure.py:302-314 | Whatever the name rules are, renaming entries before their directories performs every planned rename exactly when no new name vanishes. It never meets a path that has gone away. |
| Rename.PassesSucceed | 0.preprocessing_data/scripts/1.update_file_structure.py:302-348 | The NF0014 pass, the tag pass and the NF0016 pass as written each find every path they listed exactly when none of their new names vanishes. |
| Rename.DirsFirstFails | 0.preprocessing_data/scripts/1.update_file_structure.py:302-314 | Renaming the directories first fails whenever a directory with entries is renamed away and no directory takes its name: the listed entry paths of that directory no longer exist. |
| Rename.RenamedAwayFails | 0.preprocessing_data/scripts/1.update_file_structure.py:302-314 | Any batch of directory renames that moves directory `d` away, with none renamed onto `d`, followed by entry renames that include one inside `d`, fails. |
| Order.PathLessTotal | 1.max_projection/scripts/0.cp_max_projection.py:61 | Of two different paths, one sorts before the other. |
| Order.PathLessTransitive | 1.max_projection/scripts/0.cp_max_projection.py:61 | The path order is transitive. |
| Projection.ColumnMax | 1.max_projection/scripts/0.cp_max_projection.py:66 | The value at a pixel is at least every slice's value there, and equals some slice's value. |
| Projection.MaxProjection | 1.max_projection/scripts/0.cp_max_projection.py:66 | There is no projection exactly when Z = 0. Otherwise it has shape H x W, and each pixel bounds every slice and is attained by one. |
| Projection.SingleSliceProjection | 1.max_projection/scripts/0.cp_max_projection.py:66 | With Z = 1 the projection is the slice itself. |
| Projection.Larger | 1.max_projection/scripts/0.cp_max_projection.py:66 | The pixel-wise larger image bounds both inputs and takes each pixel from one of them. |
| Projection.ReduceMax | 1.max_projection/scripts/0.cp_max_projection.py:66 | Folding slices into a running maximum gives exactly the projection, and nothing when Z = 0. |
| Projection.TiffNotMatched | 1.max_projection/scripts/0.cp_max_projection.py:60 | A name ending in `.tiff` is not selected. |
| Projection.MatchesTif | 1.max_projection/scripts/0.cp_max_projection.py:60 | The `*.tif` pattern. `Projection.TiffNotMatched` and `Projection.TifEntries` state its behaviour. |
| Projection.TifEntries | 1.max_projection/scripts/0.cp_max_projection.py:60 | Exactly the traversed entries whose name ends in `.tif` are selected, each as many times as it is traversed. |
| Projection.Insert | 1.max_projection/scripts/0.cp_max_projection.py:61 | Inserting into a sorted list gives a sorted list with one more occurrence of the entry. |
| Projection.SortByPath | 1.max_projection/scripts/0.cp_max_projection.py:61 | Sorting gives a permutation in non-decreasing path order. |
| Projection.TifInputs | 1.max_projection/scripts/0.cp_max_projection.py:60-61 | The inputs are exactly the entries below the stack directory whose name ends in `.tif`, each as often as traversed, sorted by path. |
| Projection.SortedTifs | 1.max_projection/scripts/0.cp_max_projection.py:60-61 | A permutation of the selected entries holds exactly the `.tif` entries below the stack directory, each strictly below it. |
| Projection.LastComponent | 1.max_projection/scripts/0.cp_max_projection.py:68 | `str(parent).split("/")[-1]` is the parent's last component, or empty for the root. |
| Projection.OutputPathMirrors | 1.max_projection/scripts/0.cp_max_projection.py:68 | The output path is the output directory followed by the input's last two components. |
| Projection.OutputPath | 1.max_projection/scripts/0.cp_max_projection.py:68 | The output path. `Projection.OutputPathMirrors` and `Projection.SameNamesCollide` state its behaviour. |
| Projection.SameNamesCollide | 1.max_projection/scripts/0.cp_max_projection.py:68-70 | Inputs whose directory and file names agree are written to the same output path. |
| Projection.ProjectAll | 1.max_projection/scripts/0.cp_max_projection.py:62-70 | Inputs are projected in order, each written to its output path. The loop stops at the first input that cannot be read or has no slices, and only then. |
| Projection.ProjectPatient | 1.max_projection/scripts/0.cp_max_projection.py:59-70 | Every output written belongs to a `.tif` entry below the stack directory. |
| Projection.OutputsFromInputs | 1.max_projection/scripts/0.cp_max_projection.py:62-70 | Every output the loop writes is at the output path of one of its inputs. |

## Left out

- File contents, `shutil.copy2` byte copying and metadata, `mkdir`, `tifffile` reading and writing, and `os.rename` itself are left out. The model computes source and target names only. A file read is a `load` parameter of the projector.
- The process pool, its `cpu_count() - 2` sizing and `tqdm` progress bars are left out. The pool's lack of ordering is covered by `Restructure.WellsWriteDisjointTargets`.
- The `--HPC` and `--patient` arguments, the hard-coded dataset path table, notebook detection and `resolve(strict=True)` are left out. Roots and listings are parameters.
- Rename failures other than a missing source or a vanishing new name are left out: permissions, and a missing path outside the listed ones.
- `Rename.Apply`: it does not model failures that depend on the kind of the entry already at the new name. A directory renamed onto a file raises `NotADirectoryError`, a file renamed onto a directory raises `IsADirectoryError`, and a directory renamed onto a non-empty directory raises `OSError`. The model treats each of these as a replacement.
- `Restructure.IsImage`: it lower-cases ASCII letters only. For membership in `{".tif", ".tiff"}` this gives the same answer as `str.lower()`.
- `Tree.Walk`: it follows the `rglob` order of Python 3.11 and earlier: the whole listing, then each subdirectory's traversal in listing order. Later versions also yield a directory's listing before anything below it, but may reach the deeper listings in another order. The listing order itself comes from the operating system. The order decides which same-named image survives. It also decides which wanted files are copied before a wanted directory stops the copy.
- `Restructure.ProcessChildren`: an exception other than copying a directory, such as a permission error, is left out.
- `Projection.ProjectAll`: single-page TIFF files, whose arrays are two-dimensional, are left out. The loader always yields a three-dimensional stack. Pixel types are unbounded integers.
- `Projection.TifEntries`: it treats `*.tif` as "ends in `.tif`". A hidden name `.tif` is selected, as `pathlib` globbing matches dot-files.

## Findings

| source | as written | input that shows it | evidently intended | confidence | as-written member | corrected member |
|---|---|---|---|---|---|---|
| 0.preprocessing_data/scripts/1.update_file_structure.py:304 | `f"{stem}.{suffix}"` adds a dot in front of a suffix that already begins with one | `A01 (60X).tif` becomes `A01..tif` | `stem + suffix`, giving `A01.tif`, as the NF0018 pass does at line 338 | high; not executed | Rename.NF0016DoubleDot | Rename.NF0018KeepsSuffix |

`Rename.NF0016FileName` models the rule as written, and
`Rename.NF0016PlanAsWritten` models the NF0016 pass with it.
`Rename.NF0016Example` computes the concrete case. The corrected rule is
`Rename.NF0018FileName`. `Rename.NF0018KeepsSuffix` proves that it keeps
the suffix and drops only the tag. `Rename.TagPlan`, the model of both the
NF0016 and the NF0018 pass, uses the corrected rule.

=== FILE: optional.dfy ===
/** A value that may be absent: the model's stand-in for an operation that
    raises (a missing path, an unreadable stack, an empty reduction). */
module Optional {

  datatype Option<+T> = None | Some(value: T)
}

=== FILE: order.dfy ===
/** The order in which `list.sort()` puts `pathlib` paths: lexicographic
    over the components, each component compared as Python compares
    strings, code point by code point with a proper prefix first. */
module Order {

  /** Python's `a < b` on strings. */
  predicate StrLess(a: string, b: string)
    decreases |a|
  {
    if |a| == 0 then |b| > 0
    else if |b| == 0 then false
    else if a[0] != b[0] then a[0] < b[0]
    else StrLess(a[1..], b[1..])
  }

  /** No string precedes itself. */
  lemma {:induction false} StrLessIrreflexive(a: string)
    ensures !StrLess(a, a)
    decreases |a|
  {
    if |a| > 0 {
      StrLessIrreflexive(a[1..]);
    }
  }

  /** The string order is transitive. */
  lemma {:induction false} StrLessTransitive(a: string, b: string, c: string)
    requires StrLess(a, b) && StrLess(b, c)
    ensures StrLess(a, c)
    decreases |a|
  {
    if |a| > 0 && |b| > 0 && |c| > 0 && a[0] == b[0] && b[0] == c[0] {
      StrLessTransitive(a[1..], b[1..], c[1..]);
    }
  }

  /** Of two different strings, one precedes the other. */
  lemma {:induction false} StrLessTotal(a: string, b: string)
    requires a != b
    ensures StrLess(a, b) || StrLess(b, a)
    decreases |a|
  {
    if |a| > 0 && |b| > 0 && a[0] == b[0] {
      assert a == [a[0]] + a[1..] && b == [b[0]] + b[1..];
      StrLessTotal(a[1..], b[1..]);
    }
  }

  /** `PurePosixPath.__lt__`: lexicographic over the components. */
  predicate PathLess(a: seq<string>, b: seq<string>)
    decreases |a|
  {
    if |a| == 0 then |b| > 0
    else if |b| == 0 then false
    else if a[0] != b[0] then StrLess(a[0], b[0])
    else PathLess(a[1..], b[1..])
  }

  /** `a <= b` on paths. */
  predicate PathLe(a: seq<string>, b: seq<string>) {
    a == b || PathLess(a, b)
  }

  /** No path precedes itself. */
  lemma {:induction false} PathLessIrreflexive(a: seq<string>)
    ensures !PathLess(a, a)
    decreases |a|
  {
    if |a| > 0 {
      PathLessIrreflexive(a[1..]);
    }
  }

  /** The path order is transitive. */
  lemma {:induction false} PathLessTransitive(a: seq<string>, b: seq<string>, c: seq<string>)
    requires PathLess(a, b) && PathLess(b, c)
    ensures PathLess(a, c)
    decreases |a|
  {
    if |a| > 0 && |b| > 0 && |c| > 0 {
      if a[0] == b[0] && b[0] == c[0] {
        PathLessTransitive(a[1..], b[1..], c[1..]);
      } else if a[0] != b[0] && b[0] != c[0] {
        StrLessTransitive(a[0], b[0], c[0]);
        if a[0] == c[0] {
          StrLessIrreflexive(a[0]);
          StrLessTransitive(c[0], b[0], c[0]);
        }
      }
    }
  }

  /** Of two different paths, one precedes the other. */
  lemma {:induction false} PathLessTotal(a: seq<string>, b: seq<string>)
    requires a != b
    ensures PathLess(a, b) || PathLess(b, a)
    decreases |a|
  {
    if |a| > 0 && |b| > 0 {
      if a[0] == b[0] {
        assert a == [a[0]] + a[1..] && b == [b[0]] + b[1..];
        PathLessTotal(a[1..], b[1..]);
      } else {
        StrLessTotal(a[0], b[0]);
      }
    }
  }

  /** `<=` on paths is transitive. */
  lemma PathLeTransitive(a: seq<string>, b: seq<string>, c: seq<string>)
    requires PathLe(a, b) && PathLe(b, c)
    ensures PathLe(a, c)
  {
    if a != b && b != c {
      PathLessTransitive(a, b, c);
    }
  }
}

=== FILE: projection.dfy ===
/** The z maximum projection of every `.tif` stack below a patient's image
    directory. Each stack is an integer array of shape Z x H x W; the
    projection keeps, for every pixel, the largest value over the Z slices,
    and is written to `output_dir / <the input's directory name> / <the
    input's file name>`. */
module Projection {
  import opened Optional
  import opened Strings
  import opened Tree
  import opened Order

  // ---------------------------------------------------------------------
  // Stacks and their projection

  /** A two-dimensional image, row by row. */
  type Image = seq<seq<int>>

  /** A three-dimensional array: `slices` along axis 0, each `height` rows of
      `width` values. The shape is kept even when there are no slices. */
  datatype Stack = Stack(height: nat, width: nat, slices: seq<Image>)

  /** An image of `h` rows of `w` values. */
  predicate HasShape(im: Image, h: nat, w: nat) {
    |im| == h && forall i :: 0 <= i < h ==> |im[i]| == w
  }

  /** Every slice has the stack's shape, as in any numpy array. */
  predicate ValidStack(st: Stack) {
    forall z :: 0 <= z < |st.slices| ==> HasShape(st.slices[z], st.height, st.width)
  }

  /** The largest value at `(i, j)` over a non-empty run of slices: no slice
      holds more there, and some slice holds exactly that. */
  function ColumnMax(slices: seq<Image>, i: nat, j: nat): (m: int)
    requires |slices| > 0
    requires forall z :: 0 <= z < |slices| ==> i < |slices[z]| && j < |slices[z][i]|
    ensures forall z :: 0 <= z < |slices| ==> slices[z][i][j] <= m
    ensures exists z :: 0 <= z < |slices| && slices[z][i][j] == m
    decreases |slices|
  {
    var last := slices[|slices| - 1][i][j];
    if |slices| == 1 then last
    else
      var init := slices[..|slices| - 1];
      var m := ColumnMax(init, i, j);
      assert forall z :: 0 <= z < |init| ==> init[z] == slices[z];
      if m < last then last else m
  }

  /** `image.asarray().max(axis=0)`: the projection has the slices' shape,
      and each of its pixels is the largest value any slice has there, one
      that some slice actually holds. numpy refuses to reduce an empty
      axis, so a stack without slices has no projection. */
  function MaxProjection(st: Stack): (r: Option<Image>)
    requires ValidStack(st)
    ensures r.None? <==> |st.slices| == 0
    ensures r.Some? ==> HasShape(r.value, st.height, st.width)
    ensures r.Some? ==> forall i, j :: 0 <= i < st.height && 0 <= j < st.width ==>
      r.value[i][j] == ColumnMax(st.slices, i, j)
    ensures r.Some? ==> forall i, j, z :: 0 <= i < st.height && 0 <= j < st.width && 0 <= z < |st.slices| ==>
      st.slices[z][i][j] <= r.value[i][j]
    ensures r.Some? ==> forall i, j :: 0 <= i < st.height && 0 <= j < st.width ==>
      exists z :: 0 <= z < |st.slices| && st.slices[z][i][j] == r.value[i][j]
  {
    if |st.slices| == 0 then None
    else
      var p := seq(st.height, i requires 0 <= i < st.height =>
        seq(st.width, j requires 0 <= j < st.width => ColumnMax(st.slices, i, j)));
      assert forall i, j :: 0 <= i < st.height && 0 <= j < st.width ==> p[i][j] == ColumnMax(st.slices, i, j);
      Some(p)
  }

  /** A stack of one slice projects to that slice. */
  lemma SingleSliceProjection(h: nat, w: nat, im: Image)
    requires HasShape(im, h, w)
    ensures MaxProjection(Stack(h, w, [im])) == Some(im)
  {
    var p := MaxProjection(Stack(h, w, [im])).value;
    forall i | 0 <= i < h
      ensures p[i] == im[i]
    {
      forall j | 0 <= j < w
        ensures p[i][j] == im[i][j]
      {
        assert [im][0] == im;
        assert p[i][j] == ColumnMax([im], i, j);
      }
      assert |p[i]| == w == |im[i]|;
    }
    assert p == im;
  }

  /** The pixel-wise larger of two images of the same shape. */
  function Larger(a: Image, b: Image, h: nat, w: nat): (r: Image)
    requires HasShape(a, h, w) && HasShape(b, h, w)
    ensures HasShape(r, h, w)
    ensures forall i, j :: 0 <= i < h && 0 <= j < w ==>
      a[i][j] <= r[i][j] && b[i][j] <= r[i][j] && (r[i][j] == a[i][j] || r[i][j] == b[i][j])
  {
    seq(h, i requires 0 <= i < h =>
      seq(w, j requires 0 <= j < w => if a[i][j] < b[i][j] then b[i][j] else a[i][j]))
  }

  /** The reduction as numpy performs it: fold the slices into a running
      pixel-wise maximum, starting from the first. It agrees with the
      projection, and fails on a stack without slices. */
  method ReduceMax(st: Stack) returns (r: Option<Image>)
    requires ValidStack(st)
    ensures r == MaxProjection(st)
  {
    var slices, h, w := st.slices, st.height, st.width;
    if |slices| == 0 {
      return None;
    }
    var acc := slices[0];
    var z := 1;
    assert slices[..1] == [slices[0]];
    while z < |slices|
      invariant 1 <= z <= |slices|
      invariant HasShape(acc, h, w)
      invariant forall i, j :: 0 <= i < h && 0 <= j < w ==> acc[i][j] == ColumnMax(slices[..z], i, j)
    {
      FoldStep(st, z, acc);
      acc := Larger(acc, slices[z], h, w);
      z := z + 1;
    }
    assert slices[..z] == slices;
    ProjectionOfColumns(st, acc);
    return Some(acc);
  }

  /** One more slice folded into the running maximum of the first `z`
      gives the running maximum of the first `z + 1`. */
  lemma FoldStep(st: Stack, z: nat, acc: Image)
    requires ValidStack(st) && 0 < z < |st.slices|
    requires HasShape(acc, st.height, st.width)
    requires forall i, j :: 0 <= i < st.height && 0 <= j < st.width ==> acc[i][j] == ColumnMax(st.slices[..z], i, j)
    ensures forall i, j :: 0 <= i < st.height && 0 <= j < st.width ==>
      Larger(acc, st.slices[z], st.height, st.width)[i][j] == ColumnMax(st.slices[..z + 1], i, j)
  {
    var slices := st.slices;
    assert slices[..z + 1][..z] == slices[..z];
    assert slices[..z + 1][z] == slices[z];
  }

  /** An image holding the column maximum at every pixel is the projection. */
  lemma ProjectionOfColumns(st: Stack, acc: Image)
    requires ValidStack(st) && |st.slices| > 0
    requires HasShape(acc, st.height, st.width)
    requires forall i, j :: 0 <= i < st.height && 0 <= j < st.width ==> acc[i][j] == ColumnMax(st.slices, i, j)
    ensures MaxProjection(st) == Some(acc)
  {
    var p := MaxProjection(st).value;
    forall i | 0 <= i < st.height
      ensures acc[i] == p[i]
    {
      assert |acc[i]| == st.width == |p[i]|;
    }
    assert acc == p;
  }

  // ---------------------------------------------------------------------
  // Which files are projected, and in which order

  /** The pattern `*.tif`: the name ends in ".tif", case-sensitively. */
  predicate MatchesTif(name: string) {
    EndsWith(name, ".tif")
  }

  /** A name ending in ".tiff" does not match `*.tif`. */
  lemma TiffNotMatched(name: string)
    requires EndsWith(name, ".tiff")
    ensures !MatchesTif(name)
  {
    assert name[|name| - 4..][0] == name[|name| - 5..][1] == 't';
  }

  /** The entries of a traversal whose name matches `*.tif`, directories
      included, in traversal order. */
  function TifEntries(fs: seq<Located>): (r: seq<Located>)
    ensures forall x :: x in r <==> x in fs && MatchesTif(x.entry.name)
    ensures forall x :: multiset(r)[x] == if MatchesTif(x.entry.name) then multiset(fs)[x] else 0
  {
    if fs == [] then []
    else
      assert fs == [fs[0]] + fs[1..];
      (if MatchesTif(fs[0].entry.name) then [fs[0]] else []) + TifEntries(fs[1..])
  }

  /** Entries in non-decreasing path order. */
  predicate SortedByPath(xs: seq<Located>) {
    forall i, j :: 0 <= i < j < |xs| ==> PathLe(xs[i].path, xs[j].path)
  }

  /** One entry put into its place in a sorted list. */
  function Insert(x: Located, xs: seq<Located>): (r: seq<Located>)
    requires SortedByPath(xs)
    ensures SortedByPath(r)
    ensures multiset(r) == multiset(xs) + multiset{x}
    ensures forall y :: y in r ==> y == x || y in xs
  {
    if xs == [] then [x]
    else if PathLe(x.path, xs[0].path) then
      assert forall j :: 0 <= j < |xs| ==> PathLe(x.path, xs[j].path) by {
        forall j | 0 <= j < |xs|
          ensures PathLe(x.path, xs[j].path)
        {
          if j > 0 {
            PathLeTransitive(x.path, xs[0].path, xs[j].path);
          }
        }
      }
      [x] + xs
    else
      var rest := Insert(x, xs[1..]);
      assert xs == [xs[0]] + xs[1..];
      HeadPrecedesRest(x, xs, rest);
      [xs[0]] + rest
  }

  /** When `x` goes after the head of a sorted list, everything inserted
      after the head still follows the head. */
  lemma HeadPrecedesRest(x: Located, xs: seq<Located>, rest: seq<Located>)
    requires xs != [] && SortedByPath(xs) && !PathLe(x.path, xs[0].path)
    requires forall y :: y in rest ==> y == x || y in xs[1..]
    ensures forall y :: y in rest ==> PathLe(xs[0].path, y.path)
  {
    PathLessTotal(x.path, xs[0].path);
    forall y | y in rest
      ensures PathLe(xs[0].path, y.path)
    {
      if y != x {
        var j :| 0 <= j < |xs| - 1 && xs[1..][j] == y;
        assert xs[j + 1] == y;
      }
    }
  }

  /** `list.sort()` on paths: a sorted permutation. */
  function SortByPath(xs: seq<Located>): (r: seq<Located>)
    ensures SortedByPath(r)
    ensures multiset(r) == multiset(xs)
  {
    if xs == [] then []
    else
      assert xs == [xs[0]] + xs[1..];
      Insert(xs[0], SortByPath(xs[1..]))
  }

  /** `sorted(images_dir.rglob("*.tif"))`: exactly the entries below the
      directory whose name ends in ".tif" (a directory so named included),
      each as often as the traversal yields it, in path order. */
  function TifInputs(imagesDir: Located): (r: seq<Located>)
    requires imagesDir.entry.Dir?
    ensures SortedByPath(r)
    ensures multiset(r) == multiset(TifEntries(Descendants(imagesDir)))
    ensures forall x :: x in r <==> x in Descendants(imagesDir) && MatchesTif(x.entry.name)
    ensures forall k :: 0 <= k < |r| ==> |r[k].path| > |imagesDir.path|
  {
    var r := SortByPath(TifEntries(Descendants(imagesDir)));
    SortedTifs(imagesDir, r);
    r
  }

  /** The sorted `.tif` entries are exactly the `.tif` entries below the
      directory, each with a path longer than the directory's. */
  lemma SortedTifs(imagesDir: Located, r: seq<Located>)
    requires imagesDir.entry.Dir?
    requires multiset(r) == multiset(TifEntries(Descendants(imagesDir)))
    ensures forall x :: x in r <==> x in Descendants(imagesDir) && MatchesTif(x.entry.name)
    ensures forall k :: 0 <= k < |r| ==> |r[k].path| > |imagesDir.path|
  {
    var ds := Descendants(imagesDir);
    forall x
      ensures x in r <==> x in ds && MatchesTif(x.entry.name)
    {
      assert x in r <==> x in multiset(r);
      assert x in TifEntries(ds) <==> x in multiset(TifEntries(ds));
    }
    forall k | 0 <= k < |r|
      ensures |r[k].path| > |imagesDir.path|
    {
      assert r[k] in r;
      DescendantPath(imagesDir, r[k]);
    }
  }

  // ---------------------------------------------------------------------
  // Where each projection is written

  /** `str(path)` of an absolute path given by its components. */
  function PathString(p: seq<string>): (s: string)
    ensures |s| > 0 && s[0] == '/'
    decreases |p|
  {
    if |p| == 0 then "/"
    else if |p| == 1 then "/" + p[0]
    else PathString(p[..|p| - 1]) + "/" + p[|p| - 1]
  }

  /** Components as `pathlib` produces them: non-empty and slash-free. */
  predicate PlainComponents(p: seq<string>) {
    forall k :: 0 <= k < |p| ==> p[k] != "" && '/' !in p[k]
  }

  /** `str(p).split("/")[-1]` is the last component of `p`, or "" for the
      root. */
  lemma LastComponent(p: seq<string>)
    requires PlainComponents(p)
    ensures AfterLast(PathString(p), '/') == if |p| == 0 then "" else p[|p| - 1]
  {
    if |p| > 0 {
      var last := p[|p| - 1];
      var head := if |p| == 1 then [] else PathString(p[..|p| - 1]);
      assert PathString(p) == head + ['/'] + last;
      assert '/' !in last;
      AfterLastOfJoin(head, last, '/');
    }
  }

  /** What follows the last `c` of `a + [c] + b`, when `b` has no `c`, is `b`. */
  lemma AfterLastOfJoin(a: string, b: string, c: char)
    requires c !in b
    ensures AfterLast(a + [c] + b, c) == b
  {
    var s := a + [c] + b;
    var r := AfterLast(s, c);
    assert s[|a|] == c && s[|a| + 1..] == b;
  }

  /** `output_dir / str(tiff_file.parent).split("/")[-1] / tiff_file.name`;
      an empty middle part adds nothing, as `pathlib` drops it. */
  function OutputPath(outDir: seq<string>, input: seq<string>): seq<string>
    requires |input| > 0
  {
    var dirName := AfterLast(PathString(input[..|input| - 1]), '/');
    outDir + (if dirName == "" then [] else [dirName]) + [input[|input| - 1]]
  }

  /** The output path mirrors the last two components of the input: its
      directory name and file name. A file in the root keeps only its name. */
  lemma OutputPathMirrors(outDir: seq<string>, input: seq<string>)
    requires |input| > 0 && PlainComponents(input)
    ensures |input| >= 2 ==> OutputPath(outDir, input) == outDir + input[|input| - 2..]
    ensures |input| == 1 ==> OutputPath(outDir, input) == outDir + input
  {
    var parent := input[..|input| - 1];
    var name := input[|input| - 1];
    ParentIsPlain(input);
    LastComponent(parent);
    if |input| >= 2 {
      var dirName := input[|input| - 2];
      assert parent[|parent| - 1] == dirName;
      assert input[|input| - 2..] == [dirName, name];
    } else {
      assert input == [name];
    }
  }

  /** The parent of a path with plain components has plain components. */
  lemma ParentIsPlain(p: seq<string>)
    requires |p| > 0 && PlainComponents(p)
    ensures PlainComponents(p[..|p| - 1])
  {
    assert forall k :: 0 <= k < |p| - 1 ==> p[..|p| - 1][k] == p[k];
  }

  /** Inputs in two directories of the same name, with the same file name,
      are written to the same output path; the later one overwrites. */
  lemma SameNamesCollide(outDir: seq<string>, a: seq<string>, b: seq<string>)
    requires |a| >= 2 && |b| >= 2 && PlainComponents(a) && PlainComponents(b)
    requires a[|a| - 2..] == b[|b| - 2..]
    ensures OutputPath(outDir, a) == OutputPath(outDir, b)
  {
    OutputPathMirrors(outDir, a);
    OutputPathMirrors(outDir, b);
  }

  // ---------------------------------------------------------------------
  // The projection loop

  /** One projection written: where, and what. */
  datatype Output = Output(path: seq<string>, image: Image)

  /** The effect of the loop: the outputs written, in order, and the input
      at which it stopped, if it stopped early. */
  datatype Run = Run(outputs: seq<Output>, stoppedAt: Option<seq<string>>)

  /** A reader that yields well-shaped stacks. */
  ghost predicate ValidLoader(load: seq<string> -> Option<Stack>) {
    forall p :: load(p).Some? ==> ValidStack(load(p).value)
  }

  /** The loop over the sorted inputs. `load` stands for reading a TIFF file:
      `None` when the path cannot be read as one (a directory named `x.tif`,
      say). The first unreadable input or stack without slices raises and
      ends the loop; every earlier input has had its projection written. */
  function ProjectAll(inputs: seq<Located>, outDir: seq<string>, load: seq<string> -> Option<Stack>): (r: Run)
    requires ValidLoader(load)
    requires forall k :: 0 <= k < |inputs| ==> |inputs[k].path| > 0
    ensures |r.outputs| <= |inputs|
    ensures r.stoppedAt.None? <==> |r.outputs| == |inputs|
    ensures forall k :: 0 <= k < |r.outputs| ==>
      && load(inputs[k].path).Some?
      && r.outputs[k].path == OutputPath(outDir, inputs[k].path)
      && MaxProjection(load(inputs[k].path).value) == Some(r.outputs[k].image)
    ensures r.stoppedAt.Some? ==>
      var p := inputs[|r.outputs|].path;
      && r.stoppedAt.value == p
      && (load(p).None? || |load(p).value.slices| == 0)
    decreases |inputs|
  {
    if inputs == [] then Run([], None)
    else
      var p := inputs[0].path;
      var stack := load(p);
      if stack.None? || MaxProjection(stack.value).None? then Run([], Some(p))
      else
        var tail := inputs[1..];
        assert forall k :: 0 <= k < |tail| ==> tail[k] == inputs[k + 1];
        var rest := ProjectAll(tail, outDir, load);
        Run([Output(OutputPath(outDir, p), MaxProjection(stack.value).value)] + rest.outputs, rest.stoppedAt)
  }

  /** The whole script for one patient: project every `.tif` below the image
      directory, in path order, into `outDir`. */
  function ProjectPatient(imagesDir: Located, outDir: seq<string>, load: seq<string> -> Option<Stack>): (r: Run)
    requires imagesDir.entry.Dir? && ValidLoader(load)
    ensures forall o :: o in r.outputs ==>
      exists x :: x in Descendants(imagesDir) && MatchesTif(x.entry.name) && o.path == OutputPath(outDir, x.path)
  {
    var inputs := TifInputs(imagesDir);
    OutputsFromInputs(inputs, outDir, load);
    ProjectAll(inputs, outDir, load)
  }

  /** Every output of the loop is written for one of its inputs. */
  lemma OutputsFromInputs(inputs: seq<Located>, outDir: seq<string>, load: seq<string> -> Option<Stack>)
    requires ValidLoader(load)
    requires forall k :: 0 <= k < |inputs| ==> |inputs[k].path| > 0
    ensures forall o :: o in ProjectAll(inputs, outDir, load).outputs ==>
      exists x :: x in inputs && o.path == OutputPath(outDir, x.path)
  {
    var r := ProjectAll(inputs, outDir, load);
    forall o | o in r.outputs
      ensures exists x :: x in inputs && o.path == OutputPath(outDir, x.path)
    {
      var k :| 0 <= k < |r.outputs| && r.outputs[k] == o;
      assert inputs[k] in inputs;
    }
  }
}

=== FILE: purepath.dfy ===
/** The name-splitting rules of Python's `pathlib.PurePath`: `suffix` is the
    text from the last `.` of the final component, provided that dot is
    neither the first nor the last character, and `stem` is what precedes it.
    A hidden name such as `.tif` and a name ending in a dot such as `x.` have
    no suffix. */
module PurePath {

  /** Index of the last `.` in `name`, or -1 when there is none. */
  function LastDot(name: string): (i: int)
    ensures -1 <= i < |name|
    ensures 0 <= i ==> name[i] == '.'
    ensures forall j :: i < j < |name| ==> name[j] != '.'
    decreases |name|
  {
    if |name| == 0 then -1
    else if name[|name| - 1] == '.' then |name| - 1
    else LastDot(name[..|name| - 1])
  }

  /** `PurePath.suffix`: empty, or a dot followed by at least one character
      and no further dot; the stem and the suffix put together give back the
      name. */
  function Suffix(name: string): (r: string)
    ensures r == "" || (|r| >= 2 && r[0] == '.' && '.' !in r[1..])
    ensures Stem(name) + r == name
  {
    var i := LastDot(name);
    if 0 < i < |name| - 1 then name[i..] else ""
  }

  /** `PurePath.stem`: the name without its suffix. */
  function Stem(name: string): (r: string)
    ensures |r| <= |name| && r == name[..|r|]
  {
    var i := LastDot(name);
    if 0 < i < |name| - 1 then name[..i] else name
  }

  /** A name whose tail from index `k` is a dot followed by dot-free text of
      at least one character, with `k > 0`, has exactly that tail as suffix. */
  lemma SuffixAt(name: string, k: nat)
    requires 0 < k < |name| - 1
    requires name[k] == '.'
    requires forall j :: k < j < |name| ==> name[j] != '.'
    ensures Suffix(name) == name[k..]
    ensures Stem(name) == name[..k]
  {
    var i := LastDot(name);
    assert i == k;
  }
}

=== FILE: rename.dfy ===
/** The renaming passes that run before restructuring.
    - NF0014: every directory directly under the raw-image root is renamed to
      the part of its stem before the first " (".
    - NF0016 and NF0018: every entry inside each such directory is renamed
      first, with " (60X)" dropped from its stem. Then the directories
      themselves are renamed the same way.
    Every rename is computed from paths listed before any rename runs, so
    the model tracks which of those paths still exist when their turn
    comes. */
module Rename {
  import opened Optional
  import opened Strings
  import opened PurePath
  import opened Tree

  // ---------------------------------------------------------------------
  // Name rules

  /** The objective tag the NF0016 and NF0018 passes remove. */
  const Tag := " (60X)"

  /** The separator the NF0014 pass cuts at. */
  const Qualifier := " ("

  /** `s.replace(' (60X)', '')`. */
  function StripTag(s: string): (r: string)
    ensures |r| <= |s|
    ensures r == s <==> !Contains(s, Tag)
  {
    RemoveAll(s, Tag)
  }

  /** The NF0018 name of an entry: the stem without the tag, then the
      original suffix. */
  function NF0018FileName(name: string): string {
    StripTag(Stem(name)) + Suffix(name)
  }

  /** The NF0016 name of an entry, written as `f"{stem}.{suffix}"`. Because
      a non-empty suffix already begins with a dot, this puts a second dot
      in front of it. */
  function NF0016FileName(name: string): string {
    StripTag(Stem(name)) + "." + Suffix(name)
  }

  /** The NF0016 and NF0018 name of a directory: its stem without the tag. */
  function TaggedDirName(name: string): string {
    StripTag(Stem(name))
  }

  /** The NF0014 name of a directory: its stem cut at the first " (". The
      result is a prefix of the stem that never contains " (". */
  function TrimQualifier(name: string): (r: string)
    ensures |r| <= |Stem(name)| && r == Stem(name)[..|r|]
    ensures !Contains(r, Qualifier)
  {
    CutAtLacksSeparator(Stem(name), Qualifier);
    CutAt(Stem(name), Qualifier)
  }

  /** The NF0018 rule leaves a name alone exactly when its stem lacks the
      tag. */
  lemma NF0018Unchanged(name: string)
    ensures NF0018FileName(name) == name <==> !Contains(Stem(name), Tag)
  {
    var stem, suf := Stem(name), Suffix(name);
    if NF0018FileName(name) == name {
      assert StripTag(stem) + suf == stem + suf;
      assert |StripTag(stem)| == |stem|;
      assert StripTag(stem) == (StripTag(stem) + suf)[..|stem|] == (stem + suf)[..|stem|] == stem;
    }
  }

  /** A name with a suffix keeps that suffix under the NF0018 rule, and its
      new stem is the old stem without the tag, as long as something of the
      stem is left. */
  lemma NF0018KeepsSuffix(name: string)
    requires Suffix(name) != "" && StripTag(Stem(name)) != ""
    ensures Suffix(NF0018FileName(name)) == Suffix(name)
    ensures Stem(NF0018FileName(name)) == StripTag(Stem(name))
  {
    var base, suf := StripTag(Stem(name)), Suffix(name);
    var n := base + suf;
    assert n[|base|..] == suf;
    forall j | |base| < j < |n|
      ensures n[j] != '.'
    {
      assert n[j] == suf[j - |base|];
      assert suf[j - |base|] in suf[1..];
    }
    SuffixAt(n, |base|);
  }

  /** The NF0016 rule, on a name with a suffix, gives a stem that ends in a
      dot: the name "A01 (60X).tif" becomes "A01..tif" instead of the
      "A01.tif" that the NF0018 rule gives. */
  lemma NF0016DoubleDot(name: string)
    requires Suffix(name) != ""
    ensures Suffix(NF0016FileName(name)) == Suffix(name)
    ensures Stem(NF0016FileName(name)) == StripTag(Stem(name)) + "."
    ensures NF0016FileName(name) != NF0018FileName(name)
  {
    var base, suf := StripTag(Stem(name)) + ".", Suffix(name);
    var n := base + suf;
    assert n == NF0016FileName(name);
    assert n[|base|..] == suf;
    forall j | |base| < j < |n|
      ensures n[j] != '.'
    {
      assert n[j] == suf[j - |base|];
      assert suf[j - |base|] in suf[1..];
    }
    SuffixAt(n, |base|);
    assert |n| == |NF0018FileName(name)| + 1;
  }

  /** The concrete case: the NF0016 rule turns "A01 (60X).tif" into
      "A01..tif", and the NF0018 rule into "A01.tif". */
  lemma NF0016Example()
    ensures NF0016FileName("A01 (60X).tif") == "A01..tif"
    ensures NF0018FileName("A01 (60X).tif") == "A01.tif"
  {
    ExampleParts();
    ExampleStrip();
  }

  /** The stem and suffix of "A01 (60X).tif". */
  lemma ExampleParts()
    ensures Stem("A01 (60X).tif") == "A01 (60X)"
    ensures Suffix("A01 (60X).tif") == ".tif"
  {
    SuffixAt("A01 (60X).tif", 9);
  }

  /** Dropping the tag from "A01 (60X)". */
  lemma ExampleStrip()
    ensures StripTag("A01 (60X)") == "A01"
  {
    var s := "A01 (60X)";
    assert s[3..] == Tag;
    assert RemoveAll(s[3..], Tag) == "" by {
      assert s[3..][|Tag|..] == "";
    }
    assert s[2..][..|Tag|] != Tag;
    assert s[2..][1..] == s[3..];
    assert RemoveAll(s[2..], Tag) == "1";
    assert s[1..][..|Tag|] != Tag;
    assert s[1..][1..] == s[2..];
    assert RemoveAll(s[1..], Tag) == "01";
    assert s[..|Tag|] != Tag;
  }

  /** The NF0014 rule leaves a name alone exactly when it has neither a
      suffix nor " (". */
  lemma TrimQualifierUnchanged(name: string)
    ensures TrimQualifier(name) == name <==> !Contains(name, Qualifier) && Suffix(name) == ""
  {
    var stem := Stem(name);
    if Suffix(name) == "" {
      assert stem == name;
      CutAtWhole(stem, Qualifier);
    } else {
      assert |stem| < |name|;
    }
  }

  /** Applying the NF0014 rule twice is applying it once exactly when the
      first result has no suffix: "a.b (x).c" becomes "a.b", and then "a". */
  lemma TrimQualifierTwice(name: string)
    ensures TrimQualifier(TrimQualifier(name)) == TrimQualifier(name) <==> Suffix(TrimQualifier(name)) == ""
  {
    var r := TrimQualifier(name);
    PrefixLacks(r, Stem(r), Qualifier);
    TrimQualifierUnchanged(r);
  }

  /** A prefix of a text free of `t` is free of `t`. */
  lemma PrefixLacks(s: string, p: string, t: string)
    requires |p| <= |s| && p == s[..|p|]
    requires !Contains(s, t)
    ensures !Contains(p, t)
  {
    ContainsIffOccursAt(s, t);
    forall j | 0 <= j <= |p|
      ensures !StartsWith(p[j..], t)
    {
      if |t| <= |p| - j {
        assert s[j..][..|t|] == p[j..][..|t|];
      }
    }
    ContainsIffOccursAt(p, t);
  }

  /** The concrete case: a directory named "B2 (Plate 1)" becomes "B2". */
  lemma TrimQualifierExample()
    ensures TrimQualifier("B2 (Plate 1)") == "B2"
  {
    var name := "B2 (Plate 1)";
    assert forall k :: 0 <= k < |name| ==> name[k] != '.';
    assert Stem(name) == name;
    assert name[2..][..2] == Qualifier;
    assert name[0..][..2][0] == 'B' && name[1..][..2][0] == '2';
    var r := CutAt(name, Qualifier);
    assert |r| == 2;
  }

  // ---------------------------------------------------------------------
  // The filesystem the renames act on

  /** The part of the raw-image root the passes touch: each directory
      directly under the root, with the names of its entries. */
  type Fs = map<string, set<string>>

  /** One rename, by names relative to the root: an entry of a directory
      renamed within that directory, or a directory renamed within the
      root. */
  datatype Rename = InDir(dir: string, source: string, target: string) | AtTop(source: string, target: string)

  /** A new name that names no entry of the directory: `pathlib` drops ""
      and "." when it joins them onto a directory, so `Path(f"{parent}/{name}")`
      is the parent itself, and ".." is the parent's parent. Renaming onto
      either raises. */
  predicate Vanishes(name: string) {
    name == "" || name == "." || name == ".."
  }

  /** Performing one rename: it fails when its source no longer exists or
      its new name vanishes, and an existing entry of the new name is
      replaced. */
  function Apply(fs: Fs, op: Rename): (r: Option<Fs>)
    ensures r.Some? <==>
      && !Vanishes(op.target)
      && if op.InDir? then op.dir in fs && op.source in fs[op.dir] else op.source in fs
    ensures r.Some? && op.InDir? ==>
      && r.value.Keys == fs.Keys
      && r.value[op.dir] == fs[op.dir] - {op.source} + {op.target}
      && (forall d :: d in fs && d != op.dir ==> r.value[d] == fs[d])
    ensures r.Some? && op.AtTop? ==>
      && r.value.Keys == fs.Keys - {op.source} + {op.target}
      && r.value[op.target] == fs[op.source]
      && (forall d :: d in fs && d != op.source && d != op.target ==> r.value[d] == fs[d])
  {
    if Vanishes(op.target) then None
    else match op
    case InDir(d, from, to) =>
      if d in fs && from in fs[d] then Some(fs[d := fs[d] - {from} + {to}]) else None
    case AtTop(from, to) =>
      if from in fs then Some((fs - {from})[to := fs[from]]) else None
  }

  /** Performing renames in order, stopping at the first one whose source is
      gone. */
  function ApplyAll(fs: Fs, ops: seq<Rename>): Option<Fs>
    decreases |ops|
  {
    if ops == [] then Some(fs)
    else
      match Apply(fs, ops[0])
      case None => None
      case Some(next) => ApplyAll(next, ops[1..])
  }

  /** Two batches in a row: the second starts from where the first ended. */
  lemma {:induction false} ApplyAllAppend(fs: Fs, a: seq<Rename>, b: seq<Rename>)
    ensures ApplyAll(fs, a + b) == match ApplyAll(fs, a) { case None => None case Some(g) => ApplyAll(g, b) }
    decreases |a|
  {
    if a != [] {
      assert (a + b)[0] == a[0];
      assert (a + b)[1..] == a[1..] + b;
      match Apply(fs, a[0]) {
        case None =>
        case Some(next) => ApplyAllAppend(next, a[1..], b);
      }
    } else {
      assert a + b == b;
    }
  }

  /** A rename whose new name vanishes makes the whole batch fail, at that
      rename or earlier. */
  lemma {:induction false} VanishingFails(fs: Fs, ops: seq<Rename>, op: Rename)
    requires op in ops && Vanishes(op.target)
    ensures ApplyAll(fs, ops) == None
    decreases |ops|
  {
    if ops[0] != op {
      match Apply(fs, ops[0]) {
        case None =>
        case Some(next) =>
          assert op in ops[1..];
          VanishingFails(next, ops[1..], op);
      }
    }
  }

  /** The names of a directory's entries. */
  function ChildNames(e: Entry): set<string>
    requires e.Dir?
  {
    set c | c in e.children :: c.name
  }

  /** The filesystem as listed before the first rename: each directory of
      the root with the names of its entries. */
  function Snapshot(cs: seq<Entry>): (fs: Fs)
    ensures fs.Keys == set e | e in cs && e.Dir? :: e.name
  {
    if cs == [] then map[]
    else
      var rest := Snapshot(cs[1..]);
      if cs[0].Dir? then rest[cs[0].name := ChildNames(cs[0])] else rest
  }

  /** With distinct names, the snapshot holds every directory of the listing
      with exactly its entries. */
  lemma {:induction false} SnapshotListsEntries(cs: seq<Entry>)
    requires Distinct(NamesOf(cs))
    ensures forall e :: e in cs && e.Dir? ==> Snapshot(cs)[e.name] == ChildNames(e)
    decreases |cs|
  {
    if cs != [] {
      DistinctTail(cs);
      SnapshotListsEntries(cs[1..]);
      forall e | e in cs && e.Dir?
        ensures Snapshot(cs)[e.name] == ChildNames(e)
      {
        if e.name == cs[0].name {
          SameNameSameEntry(cs, e, cs[0]);
        } else {
          assert e in cs[1..];
        }
      }
    }
  }

  /** The rest of a listing with distinct names has distinct names. */
  lemma DistinctTail(cs: seq<Entry>)
    requires cs != []
    ensures Distinct(NamesOf(cs)) ==> Distinct(NamesOf(cs[1..]))
  {
    if Distinct(NamesOf(cs)) {
      forall i, j | 0 <= i < j < |cs| - 1
        ensures NamesOf(cs[1..])[i] != NamesOf(cs[1..])[j]
      {
        assert NamesOf(cs[1..])[i] == NamesOf(cs)[i + 1];
        assert NamesOf(cs[1..])[j] == NamesOf(cs)[j + 1];
      }
    }
  }

  /** In a listing with distinct names, no later entry shares the first
      entry's name. */
  lemma HeadNameUnique(cs: seq<Entry>)
    requires cs != [] && Distinct(NamesOf(cs))
    ensures forall x :: x in cs[1..] ==> x.name != cs[0].name
  {
    forall x | x in cs[1..]
      ensures x.name != cs[0].name
    {
      var i :| 0 <= i < |cs| - 1 && cs[1..][i] == x;
      assert NamesOf(cs)[i + 1] == x.name;
    }
  }

  // ---------------------------------------------------------------------
  // The planned renames

  /** The renames of the entries of directory `d`, named `ns`, in listing
      order. */
  function RenamesIn(d: string, ns: seq<string>, rule: string -> string): (r: seq<Rename>)
    ensures |r| == |ns|
    ensures forall i :: 0 <= i < |ns| ==> r[i] == InDir(d, ns[i], rule(ns[i]))
  {
    seq(|ns|, i requires 0 <= i < |ns| => InDir(d, ns[i], rule(ns[i])))
  }

  /** The renames of one directory's entries rename exactly its entries,
      each by the rule. */
  predicate RenamesEntriesOf(e: Entry, rule: string -> string, here: seq<Rename>)
    requires e.Dir?
  {
    && (forall op :: op in here ==> op.InDir? && op.dir == e.name && op.target == rule(op.source) && op.source in ChildNames(e))
    && (forall c :: c in e.children ==> InDir(e.name, c.name, rule(c.name)) in here)
  }

  /** `RenamesIn` over a directory's entry names renames exactly them. */
  lemma EntryRenames(e: Entry, rule: string -> string)
    requires e.Dir?
    ensures RenamesEntriesOf(e, rule, RenamesIn(e.name, NamesOf(e.children), rule))
  {
    var here := RenamesIn(e.name, NamesOf(e.children), rule);
    forall op | op in here
      ensures op.InDir? && op.dir == e.name && op.target == rule(op.source) && op.source in ChildNames(e)
    {
      var i :| 0 <= i < |here| && here[i] == op;
      assert e.children[i] in e.children;
    }
    forall c | c in e.children
      ensures InDir(e.name, c.name, rule(c.name)) in here
    {
      var i :| 0 <= i < |e.children| && e.children[i] == c;
      assert here[i] == InDir(e.name, c.name, rule(c.name));
    }
  }

  /** The entry stage of a listing renames exactly the entries of its
      directories, each within its directory, by the rule. */
  predicate RenamesAllEntries(cs: seq<Entry>, rule: string -> string, r: seq<Rename>) {
    && (forall op :: op in r ==> op.InDir? && op.target == rule(op.source))
    && (forall op :: op in r ==> exists e :: e in cs && e.Dir? && e.name == op.dir && op.source in ChildNames(e))
    && (forall e, c :: e in cs && e.Dir? && c in e.children ==> InDir(e.name, c.name, rule(c.name)) in r)
  }

  /** The renames of the first directory followed by those of the rest
      rename all entries of the listing. */
  lemma JoinRenames(cs: seq<Entry>, rule: string -> string, here: seq<Rename>, rest: seq<Rename>)
    requires cs != []
    requires cs[0].Dir? ==> RenamesEntriesOf(cs[0], rule, here)
    requires !cs[0].Dir? ==> here == []
    requires RenamesAllEntries(cs[1..], rule, rest)
    ensures RenamesAllEntries(cs, rule, here + rest)
  {
    var r := here + rest;
    forall op | op in r
      ensures exists e :: e in cs && e.Dir? && e.name == op.dir && op.source in ChildNames(e)
    {
      if op in here {
        assert cs[0] in cs;
      } else {
        var e :| e in cs[1..] && e.Dir? && e.name == op.dir && op.source in ChildNames(e);
        assert e in cs;
      }
    }
    forall e, c | e in cs && e.Dir? && c in e.children
      ensures InDir(e.name, c.name, rule(c.name)) in r
    {
      if e != cs[0] {
        assert e in cs[1..];
      }
    }
  }

  /** The first stage of the NF0016 and NF0018 passes: every entry of every
      directory of the root, files and subdirectories alike, renamed within
      its directory. */
  function ChildRenames(cs: seq<Entry>, rule: string -> string): (r: seq<Rename>)
    ensures forall op :: op in r ==> op.InDir? && op.target == rule(op.source)
    ensures forall op :: op in r ==> exists e :: e in cs && e.Dir? && e.name == op.dir && op.source in ChildNames(e)
    ensures forall e, c :: e in cs && e.Dir? && c in e.children ==> InDir(e.name, c.name, rule(c.name)) in r
  {
    if cs == [] then []
    else
      var here := if cs[0].Dir? then RenamesIn(cs[0].name, NamesOf(cs[0].children), rule) else [];
      var rest := ChildRenames(cs[1..], rule);
      assert RenamesAllEntries(cs, rule, here + rest) by {
        if cs[0].Dir? {
          EntryRenames(cs[0], rule);
        }
        JoinRenames(cs, rule, here, rest);
      }
      here + rest
  }

  /** The directory stage of every pass: each directory of the root renamed
      within the root. Plain files of the root are never renamed. */
  function DirRenames(cs: seq<Entry>, rule: string -> string): (r: seq<Rename>)
    ensures forall op :: op in r ==> op.AtTop? && op.target == rule(op.source) && exists e :: e in cs && e.Dir? && e.name == op.source
    ensures forall e :: e in cs && e.Dir? ==> AtTop(e.name, rule(e.name)) in r
  {
    if cs == [] then []
    else (if cs[0].Dir? then [AtTop(cs[0].name, rule(cs[0].name))] else []) + DirRenames(cs[1..], rule)
  }

  /** No entry of a directory of the listing gets a vanishing name. */
  predicate NoEntryVanishes(cs: seq<Entry>, rule: string -> string) {
    forall e, c :: e in cs && e.Dir? && c in e.children ==> !Vanishes(rule(c.name))
  }

  /** No directory of the listing gets a vanishing name. */
  predicate NoDirVanishes(cs: seq<Entry>, rule: string -> string) {
    forall e :: e in cs && e.Dir? ==> !Vanishes(rule(e.name))
  }

  /** The NF0014 pass: only the directory stage, cutting at " (". */
  function NF0014Plan(cs: seq<Entry>): seq<Rename> {
    DirRenames(cs, TrimQualifier)
  }

  /** The NF0016 and NF0018 passes: entries first, then their directories,
      " (60X)" dropped from each. */
  function TagPlan(cs: seq<Entry>): seq<Rename> {
    ChildRenames(cs, NF0018FileName) + DirRenames(cs, TaggedDirName)
  }

  /** The NF0016 pass as written, with its double-dot entry names. */
  function NF0016PlanAsWritten(cs: seq<Entry>): seq<Rename> {
    ChildRenames(cs, NF0016FileName) + DirRenames(cs, TaggedDirName)
  }

  /** In a listing with distinct names, no rename of the directory stage
      touches a plain file of the root, and each stays in the root. */
  lemma OnlyDirectoriesRenamed(cs: seq<Entry>, rule: string -> string)
    requires Distinct(NamesOf(cs))
    ensures forall op, e :: op in DirRenames(cs, rule) && e in cs && e.name == op.source ==> op.AtTop? && e.Dir?
  {
    forall op, e | op in DirRenames(cs, rule) && e in cs && e.name == op.source
      ensures op.AtTop? && e.Dir?
    {
      var d :| d in cs && d.Dir? && d.name == op.source;
      SameNameSameEntry(cs, d, e);
    }
  }

  // ---------------------------------------------------------------------
  // Every listed path is still there when its rename runs

  /** Renaming distinct entries of one directory, all present, succeeds; it
      leaves the set of directories and every other directory as they were. */
  lemma {:induction false} RenamesInSucceed(fs: Fs, d: string, ns: seq<string>, rule: string -> string)
    requires d in fs && Distinct(ns)
    requires forall i :: 0 <= i < |ns| ==> ns[i] in fs[d] && !Vanishes(rule(ns[i]))
    ensures var r := ApplyAll(fs, RenamesIn(d, ns, rule));
      && r.Some?
      && r.value.Keys == fs.Keys
      && forall k :: k in fs && k != d ==> r.value[k] == fs[k]
    decreases |ns|
  {
    var ops := RenamesIn(d, ns, rule);
    if ns != [] {
      var next := Apply(fs, ops[0]).value;
      assert ops[1..] == RenamesIn(d, ns[1..], rule);
      forall i | 0 <= i < |ns| - 1
        ensures ns[1..][i] in next[d] && !Vanishes(rule(ns[1..][i]))
      {
        assert ns[1..][i] == ns[i + 1] != ns[0];
      }
      RenamesInSucceed(next, d, ns[1..], rule);
    }
  }

  /** The entry stage succeeds on any filesystem that holds every directory
      of a listing with distinct names, each with at least its listed
      entries, when no entry gets a vanishing name; it leaves the set of
      directories as it was. */
  lemma {:induction false} ChildStageSucceeds(fs: Fs, cs: seq<Entry>, rule: string -> string)
    requires Distinct(NamesOf(cs)) && NoEntryVanishes(cs, rule)
    requires forall e :: e in cs && e.Dir? ==> e.name in fs && ChildNames(e) <= fs[e.name] && Distinct(NamesOf(e.children))
    ensures var r := ApplyAll(fs, ChildRenames(cs, rule));
      r.Some? && r.value.Keys == fs.Keys
    decreases |cs|
  {
    if cs != [] {
      var e := cs[0];
      var here := if e.Dir? then RenamesIn(e.name, NamesOf(e.children), rule) else [];
      ApplyAllAppend(fs, here, ChildRenames(cs[1..], rule));
      DistinctTail(cs);
      var next := fs;
      if e.Dir? {
        forall i | 0 <= i < |e.children|
          ensures NamesOf(e.children)[i] in fs[e.name] && !Vanishes(rule(NamesOf(e.children)[i]))
        {
          assert e.children[i] in e.children;
        }
        RenamesInSucceed(fs, e.name, NamesOf(e.children), rule);
        next := ApplyAll(fs, here).value;
        HeadNameUnique(cs);
      }
      ChildStageSucceeds(next, cs[1..], rule);
    }
  }

  /** The directory stage succeeds on any filesystem that holds every
      directory of a listing with distinct names, when no directory gets a
      vanishing name. */
  lemma {:induction false} DirStageSucceeds(fs: Fs, cs: seq<Entry>, rule: string -> string)
    requires Distinct(NamesOf(cs)) && NoDirVanishes(cs, rule)
    requires forall e :: e in cs && e.Dir? ==> e.name in fs
    ensures ApplyAll(fs, DirRenames(cs, rule)).Some?
    decreases |cs|
  {
    if cs != [] {
      var e := cs[0];
      var here := if e.Dir? then [AtTop(e.name, rule(e.name))] else [];
      ApplyAllAppend(fs, here, DirRenames(cs[1..], rule));
      DistinctTail(cs);
      var next := ApplyAll(fs, here).value;
      HeadNameUnique(cs);
      DirStageSucceeds(next, cs[1..], rule);
    }
  }

  /** Renaming entries before their directories never meets a vanished
      path: on a well-formed tree the pass performs every planned rename,
      whatever the name rules are, exactly when no rule gives a name that
      vanishes. */
  lemma FilesBeforeDirsSucceeds(cs: seq<Entry>, fileRule: string -> string, dirRule: string -> string)
    requires WellFormed(cs)
    ensures ApplyAll(Snapshot(cs), ChildRenames(cs, fileRule) + DirRenames(cs, dirRule)).Some?
        <==> NoEntryVanishes(cs, fileRule) && NoDirVanishes(cs, dirRule)
  {
    if NoEntryVanishes(cs, fileRule) && NoDirVanishes(cs, dirRule) {
      BothStagesSucceed(cs, fileRule, dirRule);
    } else {
      SomeStageFails(Snapshot(cs), ChildRenames(cs, fileRule), DirRenames(cs, dirRule), cs, fileRule, dirRule);
    }
  }

  /** A plan holding a rename to a vanishing name fails. */
  lemma SomeStageFails(fs: Fs, files: seq<Rename>, dirs: seq<Rename>, cs: seq<Entry>, fileRule: string -> string, dirRule: string -> string)
    requires files == ChildRenames(cs, fileRule) && dirs == DirRenames(cs, dirRule)
    requires !NoEntryVanishes(cs, fileRule) || !NoDirVanishes(cs, dirRule)
    ensures ApplyAll(fs, files + dirs) == None
  {
    if !NoEntryVanishes(cs, fileRule) {
      var e, c :| e in cs && e.Dir? && c in e.children && Vanishes(fileRule(c.name));
      var op := InDir(e.name, c.name, fileRule(c.name));
      assert op in files;
      VanishingFails(fs, files + dirs, op);
    } else {
      var e :| e in cs && e.Dir? && Vanishes(dirRule(e.name));
      var op := AtTop(e.name, dirRule(e.name));
      assert op in dirs;
      VanishingFails(fs, files + dirs, op);
    }
  }

  /** When no name vanishes, the entry stage and then the directory stage
      find every listed path. */
  lemma BothStagesSucceed(cs: seq<Entry>, fileRule: string -> string, dirRule: string -> string)
    requires WellFormed(cs) && NoEntryVanishes(cs, fileRule) && NoDirVanishes(cs, dirRule)
    ensures ApplyAll(Snapshot(cs), ChildRenames(cs, fileRule) + DirRenames(cs, dirRule)).Some?
  {
    var fs := Snapshot(cs);
    forall e | e in cs && e.Dir?
      ensures Distinct(NamesOf(e.children))
    {
      var i :| 0 <= i < |cs| && cs[i] == e;
    }
    SnapshotListsEntries(cs);
    ChildStageSucceeds(fs, cs, fileRule);
    ApplyAllAppend(fs, ChildRenames(cs, fileRule), DirRenames(cs, dirRule));
    DirStageSucceeds(ApplyAll(fs, ChildRenames(cs, fileRule)).value, cs, dirRule);
  }

  /** The directory stage alone performs every planned rename exactly when
      no directory gets a vanishing name. */
  lemma DirStageOnly(cs: seq<Entry>, rule: string -> string)
    requires WellFormed(cs)
    ensures ApplyAll(Snapshot(cs), DirRenames(cs, rule)).Some? <==> NoDirVanishes(cs, rule)
  {
    if NoDirVanishes(cs, rule) {
      DirStageSucceeds(Snapshot(cs), cs, rule);
    } else {
      var e :| e in cs && e.Dir? && Vanishes(rule(e.name));
      VanishingFails(Snapshot(cs), DirRenames(cs, rule), AtTop(e.name, rule(e.name)));
    }
  }

  /** Each pass finds every path it listed, the NF0016 pass as written
      included, unless one of its names vanishes. */
  lemma PassesSucceed(cs: seq<Entry>)
    requires WellFormed(cs)
    ensures ApplyAll(Snapshot(cs), NF0014Plan(cs)).Some? <==> NoDirVanishes(cs, TrimQualifier)
    ensures ApplyAll(Snapshot(cs), TagPlan(cs)).Some?
        <==> NoEntryVanishes(cs, NF0018FileName) && NoDirVanishes(cs, TaggedDirName)
    ensures ApplyAll(Snapshot(cs), NF0016PlanAsWritten(cs)).Some?
        <==> NoEntryVanishes(cs, NF0016FileName) && NoDirVanishes(cs, TaggedDirName)
  {
    DirStageOnly(cs, TrimQualifier);
    FilesBeforeDirsSucceeds(cs, NF0016FileName, TaggedDirName);
    FilesBeforeDirsSucceeds(cs, NF0018FileName, TaggedDirName);
  }

  /** A name that is nothing but the tag vanishes: the NF0018 and directory
      rules give the empty name and the NF0016 rule gives ".", so a
      directory or entry named " (60X)" makes its pass fail. */
  lemma TagOnlyVanishes()
    ensures NF0018FileName(Tag) == "" && TaggedDirName(Tag) == "" && NF0016FileName(Tag) == "."
  {
    assert forall k :: 0 <= k < |Tag| ==> Tag[k] != '.';
    assert Stem(Tag) == Tag && Suffix(Tag) == "";
    assert Tag[..|Tag|] == Tag && Tag[|Tag|..] == "";
    assert StripTag(Tag) == "";
  }

  /** The directory rule can also give "..": a directory named ". (60X)."
      has no suffix (its last dot is its last character), and dropping the
      tag leaves "..", which names the root's parent. */
  lemma DotDotDirName()
    ensures TaggedDirName(". (60X).") == ".." && Vanishes("..")
  {
    var name := ". (60X).";
    assert LastDot(name) == |name| - 1;
    assert Stem(name) == name;
    assert name[..|Tag|] != Tag by { assert name[0] != Tag[0]; }
    var rest := name[1..];
    assert rest[..|Tag|] == Tag;
    assert rest[|Tag|..] == ".";
    assert RemoveAll(".", Tag) == ".";
    assert RemoveAll(rest, Tag) == ".";
    assert StripTag(name) == [name[0]] + ".";
  }

  /** The other order fails: when a directory with entries is renamed away
      and no directory takes its name, the paths listed for its entries no
      longer exist, and the entry stage that follows fails. */
  lemma DirsFirstFails(cs: seq<Entry>, fileRule: string -> string, dirRule: string -> string, i: nat)
    requires i < |cs| && cs[i].Dir? && cs[i].children != []
    requires forall e :: e in cs && e.Dir? ==> dirRule(e.name) != cs[i].name
    ensures ApplyAll(Snapshot(cs), DirRenames(cs, dirRule) + ChildRenames(cs, fileRule)) == None
  {
    var d := cs[i];
    var c := d.children[0];
    assert d in cs && c in d.children;
    assert AtTop(d.name, dirRule(d.name)) in DirRenames(cs, dirRule);
    assert InDir(d.name, c.name, fileRule(c.name)) in ChildRenames(cs, fileRule);
    RenamedAwayFails(Snapshot(cs), DirRenames(cs, dirRule), ChildRenames(cs, fileRule), d.name);
  }

  /** Any batch that first renames directory `d` away, with no directory
      renamed onto `d`, and then renames an entry of `d`, fails. */
  lemma RenamedAwayFails(fs: Fs, dirs: seq<Rename>, files: seq<Rename>, d: string)
    requires forall op :: op in dirs ==> op.AtTop? && op.target != d
    requires exists op :: op in dirs && op.source == d
    requires forall op :: op in files ==> op.InDir?
    requires exists op :: op in files && op.dir == d
    ensures ApplyAll(fs, dirs + files) == None
  {
    ApplyAllAppend(fs, dirs, files);
    DirGone(fs, dirs, d);
    if ApplyAll(fs, dirs).Some? {
      EntryOfMissingFails(ApplyAll(fs, dirs).value, files, d);
    }
  }

  /** After directory renames none of which targets `d`, `d` is gone if it
      was absent at the start or one of them renamed it away. */
  lemma {:induction false} DirGone(fs: Fs, dirs: seq<Rename>, d: string)
    requires forall op :: op in dirs ==> op.AtTop? && op.target != d
    requires d !in fs || exists op :: op in dirs && op.source == d
    ensures ApplyAll(fs, dirs).Some? ==> d !in ApplyAll(fs, dirs).value
    decreases |dirs|
  {
    if dirs != [] {
      var op := dirs[0];
      match Apply(fs, op) {
        case None =>
        case Some(next) =>
          assert d in next ==> d in fs && op.source != d;
          assert forall o :: o in dirs[1..] ==> o in dirs;
          if d in next {
            var w :| w in dirs && w.source == d;
            assert w != op;
            assert w in dirs[1..];
          }
          DirGone(next, dirs[1..], d);
      }
    }
  }

  /** Entry renames that include one inside a missing directory fail. */
  lemma {:induction false} EntryOfMissingFails(fs: Fs, files: seq<Rename>, d: string)
    requires d !in fs
    requires forall op :: op in files ==> op.InDir?
    requires exists op :: op in files && op.dir == d
    ensures ApplyAll(fs, files) == None
    decreases |files|
  {
    var op := files[0];
    match Apply(fs, op) {
      case None =>
      case Some(next) =>
        assert op.dir != d;
        var w :| w in files && w.dir == d;
        assert w in files[1..];
        assert forall o :: o in files[1..] ==> o in files;
        EntryOfMissingFails(next, files[1..], d);
    }
  }
}

=== FILE: restructure.dfy ===
/** The restructuring step: quality control of one well directory and the
    flat copy of its qualifying images into `dest/<well name>/`.

    A well holds field subdirectories; each field is expected to hold a
    directory named exactly like the well; a field qualifies when it holds
    images and every recognised channel token appears in the same non-zero
    number of image names. Qualifying images, except tiles, are copied flat
    into the well's destination, so equal names collide and the last copy
    wins. */
module Restructure {
  import opened Optional
  import opened Strings
  import opened PurePath
  import opened Tree

  /** The recognised image extensions, compared after lower-casing. */
  const ImageExtensions: set<string> := {".tif", ".tiff"}

  /** Names containing this marker are never copied. */
  const TileMarker: string := "Tile"

  /** `image.suffix.lower() in image_extensions`. Any entry yielded by
      `rglob` is examined, so a directory named `x.tif` counts as an image. */
  predicate IsImage(e: Entry) {
    Lower(Suffix(e.name)) in ImageExtensions
  }

  /** Lower-casing neither creates nor removes a dot. */
  lemma LowerKeepsDots(s: string, i: nat)
    requires i < |s|
    ensures Lower(s)[i] == '.' <==> s[i] == '.'
  {}

  /** An image's name ends, from its last dot on, in an extension. */
  lemma ImageHasEnding(e: Entry)
    requires IsImage(e)
    ensures exists k :: 0 < k < |e.name| && Lower(e.name[k..]) in ImageExtensions
  {
    var k := LastDot(e.name);
    assert Suffix(e.name) == e.name[k..];
  }

  /** A name ending, past its first character, in an extension is an image. */
  lemma EndingMakesImage(e: Entry, k: nat)
    requires 0 < k < |e.name| && Lower(e.name[k..]) in ImageExtensions
    ensures IsImage(e)
  {
    var n := e.name;
    var t := Lower(n[k..]);
    assert |t| >= 4 && t[0] == '.' && forall j :: 0 < j < |t| ==> t[j] != '.';
    LowerKeepsDots(n[k..], 0);
    forall j | k < j < |n|
      ensures n[j] != '.'
    {
      LowerKeepsDots(n[k..], j - k);
    }
    SuffixAt(n, k);
  }

  /** An entry is an image exactly when its name, lower-cased from some
      position after the first character on, reads `.tif` or `.tiff`: so
      `A01.TIF` is an image and `.tif`, `x.tif.bak` and `x.png` are not. */
  lemma ImageByEnding(e: Entry)
    ensures IsImage(e) <==> exists k :: 0 < k < |e.name| && Lower(e.name[k..]) in ImageExtensions
  {
    if IsImage(e) {
      ImageHasEnding(e);
    }
    if exists k :: 0 < k < |e.name| && Lower(e.name[k..]) in ImageExtensions {
      var k :| 0 < k < |e.name| && Lower(e.name[k..]) in ImageExtensions;
      EndingMakesImage(e, k);
    }
  }

  // ---------------------------------------------------------------------
  // has_consistent_naming

  /** The listing holds a directory (not a file) named `name`. */
  predicate HasDirNamed(cs: seq<Entry>, name: string) {
    exists c :: c in cs && c.Dir? && c.name == name
  }

  /** Every directory among `subs` holds a directory named `wellName`. */
  function AllHoldNested(subs: seq<Located>, wellName: string): (b: bool)
    ensures b <==> forall s :: s in subs && s.entry.Dir? ==> HasDirNamed(s.entry.children, wellName)
  {
    if subs == [] then true
    else
      (!subs[0].entry.Dir? || HasDirNamed(subs[0].entry.children, wellName))
      && AllHoldNested(subs[1..], wellName)
  }

  /** `has_consistent_naming`: the well has at least one subdirectory, and
      every subdirectory holds a directory named exactly like the well.
      Plain files in the well, and same-named plain files in a field, play
      no part. */
  function HasConsistentNaming(well: Located): (b: bool)
    requires well.entry.Dir?
    ensures b <==>
      && (exists s :: s in well.entry.children && s.Dir?)
      && (forall s :: s in well.entry.children && s.Dir? ==> HasDirNamed(s.children, well.entry.name))
  {
    var subs := SubDirs(well.path, well.entry.children);
    assert forall s :: s in well.entry.children && s.Dir? ==> Located(well.path + [s.name], s) in subs;
    if subs == [] then
      false
    else
      assert subs[0] in subs;
      AllHoldNested(subs, well.entry.name)
  }

  // ---------------------------------------------------------------------
  // is_image_folder_empty

  /** Some entry of `fs` is an image. */
  function AnyImage(fs: seq<Located>): (b: bool)
    ensures b <==> exists x :: x in fs && IsImage(x.entry)
  {
    if fs == [] then false
    else IsImage(fs[0].entry) || AnyImage(fs[1..])
  }

  /** `is_image_folder_empty`: no entry anywhere below the directory, file
      or directory, has an image extension. */
  function IsImageFolderEmpty(d: Located): (b: bool)
    requires d.entry.Dir?
    ensures b <==> forall x :: x in Descendants(d) ==> !IsImage(x.entry)
  {
    !AnyImage(Descendants(d))
  }

  /** Adding one image anywhere in the directory's own listing makes it
      non-empty. */
  lemma AddingImageMakesNonEmpty(d: Located, img: Entry)
    requires d.entry.Dir?
    requires IsImage(img)
    ensures !IsImageFolderEmpty(Located(d.path, Dir(d.entry.name, d.entry.children + [img])))
  {
    var cs := d.entry.children + [img];
    assert img in cs;
    assert Located(d.path + [img.name], img) in Walk(d.path, cs);
  }

  // ---------------------------------------------------------------------
  // has_equal_images_per_channel

  /** `channel_counts[token]` after the counting loop: the number of images
      in `fs` whose name contains `token`. */
  function CountChannel(fs: seq<Located>, token: string): (n: nat)
    ensures n <= |fs|
  {
    if fs == [] then 0
    else
      (if IsImage(fs[0].entry) && Contains(fs[0].entry.name, token) then 1 else 0)
      + CountChannel(fs[1..], token)
  }

  /** Counting two listings is adding their counts. */
  lemma {:induction false} CountChannelAppend(a: seq<Located>, b: seq<Located>, token: string)
    ensures CountChannel(a + b, token) == CountChannel(a, token) + CountChannel(b, token)
    decreases |a|
  {
    if a == [] {
      assert a + b == b;
    } else {
      assert (a + b)[1..] == a[1..] + b;
      CountChannelAppend(a[1..], b, token);
    }
  }

  /** One more entry raises the count of `token` by one exactly when it is
      an image whose name contains `token`: non-images are never counted,
      and a name holding several tokens raises each of their counts. */
  lemma CountChannelExtend(fs: seq<Located>, x: Located, token: string)
    ensures CountChannel(fs + [x], token)
         == CountChannel(fs, token) + (if IsImage(x.entry) && Contains(x.entry.name, token) then 1 else 0)
  {
    CountChannelAppend(fs, [x], token);
  }

  /** A positive count is witnessed by an image carrying the token. */
  lemma {:induction false} CountedImpliesImage(fs: seq<Located>, token: string)
    requires CountChannel(fs, token) > 0
    ensures exists x :: x in fs && IsImage(x.entry) && Contains(x.entry.name, token)
    decreases |fs|
  {
    if !(IsImage(fs[0].entry) && Contains(fs[0].entry.name, token)) {
      CountedImpliesImage(fs[1..], token);
      var x :| x in fs[1..] && IsImage(x.entry) && Contains(x.entry.name, token);
      assert x in fs;
    }
  }

  /** The set of per-channel counts, `set(channel_counts.values())`. */
  function ChannelCounts(fs: seq<Located>, channels: set<string>): set<nat> {
    set c | c in channels :: CountChannel(fs, c)
  }

  /** `has_equal_images_per_channel`: the per-channel counts form exactly one
      distinct value, and that value is not zero. */
  function HasEqualImagesPerChannel(d: Located, channels: set<string>): bool
    requires d.entry.Dir?
  {
    var counts := ChannelCounts(Descendants(d), channels);
    |counts| == 1 && 0 !in counts
  }

  /** The channel-completeness invariant stated directly: at least one
      channel, all channels counted alike, and every count positive. */
  predicate Balanced(fs: seq<Located>, channels: set<string>) {
    && channels != {}
    && (forall c, c' :: c in channels && c' in channels ==> CountChannel(fs, c) == CountChannel(fs, c'))
    && (forall c :: c in channels ==> CountChannel(fs, c) > 0)
  }

  /** The counts of a listing form one non-zero value exactly when the
      listing is balanced. */
  lemma SingleCountIffBalanced(fs: seq<Located>, channels: set<string>)
    ensures var counts := ChannelCounts(fs, channels);
      (|counts| == 1 && 0 !in counts) <==> Balanced(fs, channels)
  {
    var counts := ChannelCounts(fs, channels);
    if Balanced(fs, channels) {
      var c0 :| c0 in channels;
      assert counts == {CountChannel(fs, c0)};
    }
    if |counts| == 1 && 0 !in counts {
      var v :| v in counts;
      assert counts == {v} by {
        var rest := counts - {v};
        assert |rest| == 0;
      }
      forall c | c in channels
        ensures CountChannel(fs, c) == v
      {
        assert CountChannel(fs, c) in counts;
      }
    }
  }

  /** The set-of-counts test accepts exactly the balanced directories; in
      particular an empty channel set is rejected. */
  lemma EqualChannelsMeaning(d: Located, channels: set<string>)
    requires d.entry.Dir?
    ensures HasEqualImagesPerChannel(d, channels) <==> Balanced(Descendants(d), channels)
  {
    SingleCountIffBalanced(Descendants(d), channels);
  }

  /** A directory that passes the channel check always passes the emptiness
      check, so the emptiness check never rejects a directory the channel
      check would accept. */
  lemma EqualChannelsNotEmpty(d: Located, channels: set<string>)
    requires d.entry.Dir?
    requires HasEqualImagesPerChannel(d, channels)
    ensures !IsImageFolderEmpty(d)
  {
    EqualChannelsMeaning(d, channels);
    var c :| c in channels;
    CountedImpliesImage(Descendants(d), c);
  }

  // ---------------------------------------------------------------------
  // process_nested_dir

  /** Why a nested directory was skipped. */
  datatype SkipReason = NotADirectory | NoImagesFound | UnequalImagesPerChannel

  /** One `shutil.copy2(source, dest_well_dir)`: the source path and the
      destination path `dest_well_dir/<source name>`. */
  datatype Copy = Copy(source: seq<string>, target: seq<string>)

  /** The effect of processing one nested directory: skipped with a reason,
      all wanted images copied, or copying stopped at an entry that
      `shutil.copy2` cannot copy (a directory with an image name), after the
      copies that preceded it. */
  datatype NestedOutcome =
    | Skipped(reason: SkipReason)
    | Copied(copies: seq<Copy>)
    | CopyFailed(copies: seq<Copy>, at: seq<string>)

  /** The copies an outcome performed; none for a skip. */
  function CopiesOf(o: NestedOutcome): seq<Copy> {
    if o.Skipped? then [] else o.copies
  }

  /** The three checks of `process_nested_dir`, in the order it makes them:
      the first that fails names the skip reason. */
  function CheckNested(nested: Located, channels: set<string>): Option<SkipReason> {
    if !nested.entry.Dir? then Some(NotADirectory)
    else if IsImageFolderEmpty(nested) then Some(NoImagesFound)
    else if !HasEqualImagesPerChannel(nested, channels) then Some(UnequalImagesPerChannel)
    else None
  }

  /** The skip reasons, each stated through the directory's contents: a
      file is "not a directory"; a directory without any image is "no
      images"; a directory with images whose channels are not balanced is
      "unequal images"; a directory with images and balanced channels
      passes. */
  lemma NestedSkips(nested: Located, channels: set<string>)
    ensures CheckNested(nested, channels) == Some(NotADirectory) <==> nested.entry.File?
    ensures CheckNested(nested, channels) == Some(NoImagesFound)
        <==> nested.entry.Dir? && forall x :: x in Descendants(nested) ==> !IsImage(x.entry)
    ensures CheckNested(nested, channels) == Some(UnequalImagesPerChannel)
        <==> && nested.entry.Dir?
             && (exists x :: x in Descendants(nested) && IsImage(x.entry))
             && !Balanced(Descendants(nested), channels)
    ensures CheckNested(nested, channels) == None
        <==> nested.entry.Dir? && Balanced(Descendants(nested), channels)
  {
    if nested.entry.Dir? {
      EqualChannelsMeaning(nested, channels);
      if Balanced(Descendants(nested), channels) {
        EqualChannelsNotEmpty(nested, channels);
      }
    }
  }

  /** An entry the copy loop selects: an image whose name lacks `Tile`
      (case-sensitive). */
  predicate Wanted(x: Located) {
    IsImage(x.entry) && !Contains(x.entry.name, TileMarker)
  }

  /** The wanted entries of `fs`, in traversal order. */
  function CopyCandidates(fs: seq<Located>): (r: seq<Located>)
    ensures forall x :: x in r <==> x in fs && Wanted(x)
  {
    if fs == [] then []
    else (if Wanted(fs[0]) then [fs[0]] else []) + CopyCandidates(fs[1..])
  }

  /** Position of the first directory in `fs`, or `|fs|` when all are files. */
  function FirstDirectory(fs: seq<Located>): (k: nat)
    ensures k <= |fs|
    ensures forall j :: 0 <= j < k ==> fs[j].entry.File?
    ensures k < |fs| ==> fs[k].entry.Dir?
  {
    if fs == [] then 0
    else if fs[0].entry.Dir? then 0
    else 1 + FirstDirectory(fs[1..])
  }

  /** The flat copy of each entry of `fs` into `destWell`. */
  function CopiesInto(destWell: seq<string>, fs: seq<Located>): (r: seq<Copy>)
    ensures |r| == |fs|
    ensures forall i :: 0 <= i < |fs| ==> r[i] == Copy(fs[i].path, destWell + [fs[i].entry.name])
  {
    seq(|fs|, i requires 0 <= i < |fs| => Copy(fs[i].path, destWell + [fs[i].entry.name]))
  }

  /** The copy loop over the wanted entries: each is copied flat into
      `destWell`, until an entry that is a directory makes `shutil.copy2`
      raise. */
  function CopyStage(destWell: seq<string>, wanted: seq<Located>): NestedOutcome {
    var k := FirstDirectory(wanted);
    if k == |wanted| then Copied(CopiesInto(destWell, wanted))
    else CopyFailed(CopiesInto(destWell, wanted[..k]), wanted[k].path)
  }

  /** The copy loop copies only plain files among the wanted entries, each to
      `destWell/<its name>`, in the order they are wanted. It copies all of
      them when none is a directory. Otherwise it copies exactly the files
      before the first directory, and stops at that directory. */
  lemma CopyStageCopies(destWell: seq<string>, wanted: seq<Located>)
    ensures !CopyStage(destWell, wanted).Skipped?
    ensures var r := CopyStage(destWell, wanted);
      forall c :: c in CopiesOf(r) ==>
        exists x :: x in wanted && x.entry.File? && c == Copy(x.path, destWell + [x.entry.name])
    ensures var r := CopyStage(destWell, wanted);
      r.Copied? ==> forall x :: x in wanted ==> Copy(x.path, destWell + [x.entry.name]) in r.copies
    ensures var r := CopyStage(destWell, wanted);
      r.CopyFailed? <==> exists x :: x in wanted && x.entry.Dir?
    ensures var r := CopyStage(destWell, wanted);
      r.Copied? ==>
        && |r.copies| == |wanted|
        && forall i :: 0 <= i < |wanted| ==> r.copies[i] == Copy(wanted[i].path, destWell + [wanted[i].entry.name])
    ensures var r := CopyStage(destWell, wanted);
      r.CopyFailed? ==> exists k :: FailsAt(destWell, wanted, r, k)
  {
    var r := CopyStage(destWell, wanted);
    var k := FirstDirectory(wanted);
    CopyStageSources(destWell, wanted);
    if r.Copied? {
      forall x | x in wanted
        ensures Copy(x.path, destWell + [x.entry.name]) in r.copies
      {
        var i :| 0 <= i < |wanted| && wanted[i] == x;
        assert r.copies[i] == Copy(x.path, destWell + [x.entry.name]);
      }
    } else {
      assert wanted[k] in wanted;
      assert FailsAt(destWell, wanted, r, k);
    }
  }

  /** `r` is the copy loop stopped at position `k`: `wanted[k]` is the first
      directory, `r.at` is its path, and the copies are those of the files
      before it, in order. */
  predicate FailsAt(destWell: seq<string>, wanted: seq<Located>, r: NestedOutcome, k: int) {
    && r.CopyFailed?
    && 0 <= k < |wanted|
    && wanted[k].entry.Dir?
    && wanted[k].path == r.at
    && (forall j :: 0 <= j < k ==> wanted[j].entry.File?)
    && |r.copies| == k
    && forall i :: 0 <= i < k ==> r.copies[i] == Copy(wanted[i].path, destWell + [wanted[i].entry.name])
  }

  /** Selecting from two traversals one after the other is selecting from
      each: the selection keeps traversal order. */
  lemma {:induction false} CopyCandidatesAppend(a: seq<Located>, b: seq<Located>)
    ensures CopyCandidates(a + b) == CopyCandidates(a) + CopyCandidates(b)
    decreases |a|
  {
    if a == [] {
      assert a + b == b;
    } else {
      assert (a + b)[1..] == a[1..] + b;
      CopyCandidatesAppend(a[1..], b);
    }
  }

  /** `process_nested_dir`: the three checks in order, then the flat copy of
      every wanted image. */
  function ProcessNestedDir(nested: Located, destWell: seq<string>, channels: set<string>): NestedOutcome {
    var check := CheckNested(nested, channels);
    if check.Some? then Skipped(check.value)
    else CopyStage(destWell, CopyCandidates(Descendants(nested)))
  }

  /** A nested directory is skipped exactly when a check fails, with that
      check's reason, and copied from exactly when it passes them; then
      every wanted image below it is copied to `destWell/<its name>`, in
      traversal order, and nothing else is, unless a wanted entry is a
      directory: then exactly the wanted files before the first such
      directory are copied, and the copy stops there. */
  lemma NestedCopies(nested: Located, destWell: seq<string>, channels: set<string>)
    ensures var r := ProcessNestedDir(nested, destWell, channels);
      r.Skipped? <==> CheckNested(nested, channels).Some?
    ensures var r := ProcessNestedDir(nested, destWell, channels);
      r.Skipped? ==> CheckNested(nested, channels) == Some(r.reason)
    ensures var r := ProcessNestedDir(nested, destWell, channels);
      !r.Skipped? <==> nested.entry.Dir? && Balanced(Descendants(nested), channels)
    ensures var r := ProcessNestedDir(nested, destWell, channels);
      forall c :: c in CopiesOf(r) ==>
        && nested.entry.Dir?
        && exists x :: x in Descendants(nested) && Wanted(x) && x.entry.File? && c == Copy(x.path, destWell + [x.entry.name])
    ensures var r := ProcessNestedDir(nested, destWell, channels);
      r.Copied? ==> forall x :: x in Descendants(nested) && Wanted(x) ==> Copy(x.path, destWell + [x.entry.name]) in r.copies
    ensures var r := ProcessNestedDir(nested, destWell, channels);
      r.Copied? ==>
        && nested.entry.Dir?
        && var wanted := CopyCandidates(Descendants(nested));
        && |r.copies| == |wanted|
        && forall i :: 0 <= i < |wanted| ==> r.copies[i] == Copy(wanted[i].path, destWell + [wanted[i].entry.name])
    ensures var r := ProcessNestedDir(nested, destWell, channels);
      r.CopyFailed? ==>
        && nested.entry.Dir?
        && exists k :: FailsAt(destWell, CopyCandidates(Descendants(nested)), r, k)
  {
    NestedSkips(nested, channels);
    if CheckNested(nested, channels).None? {
      CopyStageCopies(destWell, CopyCandidates(Descendants(nested)));
    }
  }

  // ---------------------------------------------------------------------
  // process_well_dir

  /** The effect of processing one well: skipped for inconsistent naming
      (no destination made), or the destination `dest_dir/<well name>` made
      and the outcomes of the nested directories processed. */
  datatype WellOutcome =
    | InconsistentNaming
    | Processed(destWell: seq<string>, nested: seq<NestedOutcome>)

  /** The loop over `well_dir.iterdir()`: each child in listing order, until
      a failed copy raises out of the loop. */
  function ProcessChildren(at: seq<string>, cs: seq<Entry>, destWell: seq<string>, channels: set<string>): (r: seq<NestedOutcome>)
    ensures |r| <= |cs|
    ensures forall k :: 0 <= k < |r| ==> r[k] == ProcessNestedDir(Located(at + [cs[k].name], cs[k]), destWell, channels)
    ensures forall k :: 0 <= k < |r| - 1 ==> !r[k].CopyFailed?
    ensures |r| < |cs| ==> |r| > 0 && r[|r| - 1].CopyFailed?
  {
    if cs == [] then []
    else
      var o := ProcessNestedDir(Located(at + [cs[0].name], cs[0]), destWell, channels);
      if o.CopyFailed? then [o]
      else
        var rest := ProcessChildren(at, cs[1..], destWell, channels);
        assert forall k :: 1 <= k < |cs| ==> cs[1..][k - 1] == cs[k];
        [o] + rest
  }

  /** `process_well_dir`. */
  function ProcessWellDir(well: Located, destDir: seq<string>, channels: set<string>): WellOutcome
    requires well.entry.Dir?
  {
    if !HasConsistentNaming(well) then InconsistentNaming
    else
      var destWell := destDir + [well.entry.name];
      Processed(destWell, ProcessChildren(well.path, well.entry.children, destWell, channels))
  }

  /** All copies of a list of nested outcomes, in order. */
  function AllCopies(os: seq<NestedOutcome>): seq<Copy> {
    if os == [] then [] else CopiesOf(os[0]) + AllCopies(os[1..])
  }

  /** All copies a well performed. */
  function WellCopies(o: WellOutcome): seq<Copy> {
    if o.InconsistentNaming? then [] else AllCopies(o.nested)
  }

  /** A well is skipped exactly when it has no subdirectory or some
      subdirectory lacks a directory named like the well; a skipped well
      gets no destination and no copies. */
  lemma WellSkip(well: Located, destDir: seq<string>, channels: set<string>)
    requires well.entry.Dir?
    ensures var r := ProcessWellDir(well, destDir, channels);
      r.InconsistentNaming? <==>
        || (forall s :: s in well.entry.children ==> s.File?)
        || (exists s :: s in well.entry.children && s.Dir? && !HasDirNamed(s.children, well.entry.name))
    ensures var r := ProcessWellDir(well, destDir, channels);
      r.InconsistentNaming? ==> WellCopies(r) == []
  {
  }

  /** A plain file handed to `process_nested_dir` is skipped as "not a
      directory". */
  lemma FileNotADirectory(nested: Located, destWell: seq<string>, channels: set<string>)
    requires nested.entry.File?
    ensures ProcessNestedDir(nested, destWell, channels) == Skipped(NotADirectory)
  {
  }

  /** A consistent well gets `dest_dir/<well name>`, and, unless a copy
      fails, every child of the well is processed exactly once in listing
      order, plain-file children being skipped as "not a directory". */
  lemma WellVisitsEveryChild(well: Located, destDir: seq<string>, channels: set<string>)
    requires well.entry.Dir?
    ensures var r := ProcessWellDir(well, destDir, channels);
      var cs := well.entry.children;
      (r.Processed? && forall k :: 0 <= k < |r.nested| ==> !r.nested[k].CopyFailed?) ==>
        && r.destWell == destDir + [well.entry.name]
        && |r.nested| == |cs|
        && forall k :: 0 <= k < |cs| && cs[k].File? ==> r.nested[k] == Skipped(NotADirectory)
  {
    var r := ProcessWellDir(well, destDir, channels);
    var cs := well.entry.children;
    if r.Processed? && forall k :: 0 <= k < |r.nested| ==> !r.nested[k].CopyFailed? {
      var destWell := destDir + [well.entry.name];
      assert r.nested == ProcessChildren(well.path, cs, destWell, channels);
      forall k | 0 <= k < |cs| && cs[k].File?
        ensures r.nested[k] == Skipped(NotADirectory)
      {
        FileNotADirectory(Located(well.path + [cs[k].name], cs[k]), destWell, channels);
      }
    }
  }

  /** A path strictly below `at`. */
  predicate Below(p: seq<string>, at: seq<string>) {
    |p| > |at| && p[..|at|] == at
  }

  /** Every copy made by the copy stage reads a file of `wanted`. */
  lemma CopyStageSources(destWell: seq<string>, wanted: seq<Located>)
    ensures forall c :: c in CopiesOf(CopyStage(destWell, wanted)) ==>
      exists x :: x in wanted && x.entry.File? && c == Copy(x.path, destWell + [x.entry.name])
  {
    var r := CopyStage(destWell, wanted);
    var k := FirstDirectory(wanted);
    var done := if k == |wanted| then wanted else wanted[..k];
    assert CopiesOf(r) == CopiesInto(destWell, done);
    forall c | c in CopiesOf(r)
      ensures exists x :: x in wanted && x.entry.File? && c == Copy(x.path, destWell + [x.entry.name])
    {
      var i :| 0 <= i < |done| && CopiesOf(r)[i] == c;
      assert done[i] == wanted[i];
    }
  }

  /** When every wanted entry lies below `at` and its path ends in its own
      name, every copy of the copy stage reads below `at` and writes
      `destWell/<the source's name>`. */
  lemma CopyStageFlat(destWell: seq<string>, wanted: seq<Located>, at: seq<string>)
    requires forall x :: x in wanted ==> Below(x.path, at) && x.path[|x.path| - 1] == x.entry.name
    ensures forall c :: c in CopiesOf(CopyStage(destWell, wanted)) ==>
      Below(c.source, at) && c.target == destWell + [c.source[|c.source| - 1]]
  {
    var k := FirstDirectory(wanted);
    var done := if k == |wanted| then wanted else wanted[..k];
    assert CopiesOf(CopyStage(destWell, wanted)) == CopiesInto(destWell, done);
    assert forall i :: 0 <= i < |done| ==> done[i] in wanted;
    CopiesIntoFlat(destWell, done, at);
  }

  /** Copying entries that lie below `at`, each path ending in the entry's
      name, reads below `at` and writes `destWell/<the source's name>`. */
  lemma CopiesIntoFlat(destWell: seq<string>, fs: seq<Located>, at: seq<string>)
    requires forall i :: 0 <= i < |fs| ==> Below(fs[i].path, at) && fs[i].path[|fs[i].path| - 1] == fs[i].entry.name
    ensures forall c :: c in CopiesInto(destWell, fs) ==>
      Below(c.source, at) && c.target == destWell + [c.source[|c.source| - 1]]
  {
    var cs := CopiesInto(destWell, fs);
    forall c | c in cs
      ensures Below(c.source, at) && c.target == destWell + [c.source[|c.source| - 1]]
    {
      var i :| 0 <= i < |cs| && cs[i] == c;
      assert c == Copy(fs[i].path, destWell + [fs[i].entry.name]);
    }
  }

  /** Every copy of a nested directory reads a file below it and writes
      `destWell/<that file's name>`. */
  lemma NestedCopiesFlat(nested: Located, destWell: seq<string>, channels: set<string>)
    ensures forall c :: c in CopiesOf(ProcessNestedDir(nested, destWell, channels)) ==>
      Below(c.source, nested.path) && c.target == destWell + [c.source[|c.source| - 1]]
  {
    if CheckNested(nested, channels).None? {
      var wanted := CopyCandidates(Descendants(nested));
      forall x | x in wanted
        ensures Below(x.path, nested.path) && x.path[|x.path| - 1] == x.entry.name
      {
        DescendantPath(nested, x);
      }
      CopyStageFlat(destWell, wanted, nested.path);
    }
  }

  /** The copies of the children of `at` all read below `at` and write
      directly into `destWell`. */
  lemma {:induction false} ChildrenCopiesFlat(at: seq<string>, cs: seq<Entry>, destWell: seq<string>, channels: set<string>)
    ensures forall c :: c in AllCopies(ProcessChildren(at, cs, destWell, channels)) ==>
      Below(c.source, at) && c.target == destWell + [c.source[|c.source| - 1]]
    decreases |cs|
  {
    var os := ProcessChildren(at, cs, destWell, channels);
    if cs != [] {
      var child := Located(at + [cs[0].name], cs[0]);
      NestedCopiesFlat(child, destWell, channels);
      forall c | c in CopiesOf(os[0])
        ensures Below(c.source, at)
      {
        BelowParent(c.source, at, cs[0].name);
      }
      if |os| > 1 {
        ChildrenCopiesFlat(at, cs[1..], destWell, channels);
        assert os[1..] == ProcessChildren(at, cs[1..], destWell, channels);
      }
      assert AllCopies(os) == CopiesOf(os[0]) + AllCopies(os[1..]);
    }
  }

  /** Below a child of `at` is below `at`. */
  lemma BelowParent(p: seq<string>, at: seq<string>, name: string)
    requires Below(p, at + [name])
    ensures Below(p, at)
  {
    assert p[..|at|] == p[..|at| + 1][..|at|];
  }

  /** Everything a well copies comes from below the well and lands flat in
      `dest_dir/<well name>/`, whatever field or channel directory it came
      from. */
  lemma WellCopiesFlat(well: Located, destDir: seq<string>, channels: set<string>)
    requires well.entry.Dir?
    ensures forall c :: c in WellCopies(ProcessWellDir(well, destDir, channels)) ==>
      Below(c.source, well.path) && c.target == destDir + [well.entry.name, c.source[|c.source| - 1]]
  {
    var r := ProcessWellDir(well, destDir, channels);
    if r.Processed? {
      var destWell := destDir + [well.entry.name];
      assert r.nested == ProcessChildren(well.path, well.entry.children, destWell, channels);
      ChildrenCopiesFlat(well.path, well.entry.children, destWell, channels);
      forall c | c in WellCopies(r)
        ensures c.target == destDir + [well.entry.name, c.source[|c.source| - 1]]
      {
        assert destWell + [c.source[|c.source| - 1]] == destDir + [well.entry.name, c.source[|c.source| - 1]];
      }
    }
  }

  // ---------------------------------------------------------------------
  // The destination after the copies

  /** The destination after performing `copies` in order: one entry per
      distinct target path. */
  function Deliver(copies: seq<Copy>): (m: map<seq<string>, seq<string>>)
    ensures m.Keys == set c | c in copies :: c.target
  {
    if copies == [] then map[]
    else
      var init := copies[..|copies| - 1];
      var last := copies[|copies| - 1];
      assert copies == init + [last];
      Deliver(init)[last.target := last.source]
  }

  /** One more copy overwrites, or adds, its target. */
  lemma DeliverSnoc(copies: seq<Copy>, c: Copy)
    ensures Deliver(copies + [c]) == Deliver(copies)[c.target := c.source]
  {
    assert (copies + [c])[..|copies|] == copies;
  }

  /** No copy after the `k`-th writes the same target. */
  predicate LastWrite(copies: seq<Copy>, k: nat)
    requires k < |copies|
  {
    forall j :: k < j < |copies| ==> copies[j].target != copies[k].target
  }

  /** Each target holds the source of the last copy written to it: with a
      flat destination, a later image of the same name overwrites an
      earlier one. */
  lemma {:induction false} DeliverLastWins(copies: seq<Copy>, k: nat)
    requires k < |copies| && LastWrite(copies, k)
    ensures Deliver(copies)[copies[k].target] == copies[k].source
    decreases |copies|
  {
    var init := copies[..|copies| - 1];
    if k < |copies| - 1 {
      assert copies[k] == init[k];
      DeliverLastWins(init, k);
    }
  }

  /** Performing two batches of copies one after the other is overlaying the
      second batch's result on the first's. */
  lemma {:induction false} DeliverAppend(a: seq<Copy>, b: seq<Copy>)
    ensures Deliver(a + b) == Deliver(a) + Deliver(b)
    decreases |b|
  {
    if b == [] {
      assert a + b == a;
    } else {
      var init, last := b[..|b| - 1], b[|b| - 1];
      assert b == init + [last];
      assert a + b == (a + init) + [last];
      DeliverSnoc(a + init, last);
      DeliverSnoc(init, last);
      DeliverAppend(a, init);
      OverlayUpdate(Deliver(a), Deliver(init), last.target, last.source);
    }
  }

  /** Maps with disjoint keys overlay in either order. */
  lemma OverlayCommutes<K, V>(m1: map<K, V>, m2: map<K, V>)
    requires m1.Keys !! m2.Keys
    ensures m1 + m2 == m2 + m1
  {
  }

  /** Updating an overlay is updating its upper map. */
  lemma OverlayUpdate<K, V>(lower: map<K, V>, upper: map<K, V>, k: K, v: V)
    ensures (lower + upper)[k := v] == lower + upper[k := v]
  {
  }

  /** Batches that write disjoint targets may run in either order: the
      destination ends the same. */
  lemma DeliverCommutes(a: seq<Copy>, b: seq<Copy>)
    requires forall x, y :: x in a && y in b ==> x.target != y.target
    ensures Deliver(a + b) == Deliver(b + a)
  {
    DeliverAppend(a, b);
    DeliverAppend(b, a);
    OverlayCommutes(Deliver(a), Deliver(b));
  }

  // ---------------------------------------------------------------------
  // The per-dataset driver

  /** The effect of one dataset: no well directories found, or one outcome
      per well directory (dispatched to a worker pool, in any order). */
  datatype DatasetOutcome = NoWellDirectories | Dispatched(wells: seq<WellOutcome>)

  /** One dataset of the driver loop: every directory of the source parent is
      a well, processed into `destDir`. */
  function ProcessDataset(parent: Located, destDir: seq<string>, channels: set<string>): (r: DatasetOutcome)
    requires parent.entry.Dir?
    ensures r.NoWellDirectories? <==> forall e :: e in parent.entry.children ==> e.File?
    ensures r.Dispatched? ==>
      var wells := SubDirs(parent.path, parent.entry.children);
      |r.wells| == |wells| && forall i :: 0 <= i < |wells| ==> r.wells[i] == ProcessWellDir(wells[i], destDir, channels)
  {
    var wells := SubDirs(parent.path, parent.entry.children);
    if wells == [] then
      NoWellDirectories
    else
      assert wells[0] in wells;
      Dispatched(seq(|wells|, i requires 0 <= i < |wells| => ProcessWellDir(wells[i], destDir, channels)))
  }

  /** Two different wells of a dataset never write the same destination
      path, so the workers need no coordination and the order in which the
      pool runs them does not change the destination. */
  lemma WellsWriteDisjointTargets(parent: Located, destDir: seq<string>, channels: set<string>, w1: Located, w2: Located)
    requires parent.entry.Dir?
    requires Distinct(NamesOf(parent.entry.children))
    requires w1 in SubDirs(parent.path, parent.entry.children)
    requires w2 in SubDirs(parent.path, parent.entry.children)
    requires w1 != w2
    ensures forall x, y ::
      (x in WellCopies(ProcessWellDir(w1, destDir, channels)) && y in WellCopies(ProcessWellDir(w2, destDir, channels)))
      ==> x.target != y.target
    ensures var c1, c2 := WellCopies(ProcessWellDir(w1, destDir, channels)), WellCopies(ProcessWellDir(w2, destDir, channels));
      Deliver(c1 + c2) == Deliver(c2 + c1)
  {
    var c1, c2 := WellCopies(ProcessWellDir(w1, destDir, channels)), WellCopies(ProcessWellDir(w2, destDir, channels));
    WellCopiesFlat(w1, destDir, channels);
    WellCopiesFlat(w2, destDir, channels);
    if w1.entry.name == w2.entry.name {
      SameNameSameEntry(parent.entry.children, w1.entry, w2.entry);
    }
    forall x, y | x in c1 && y in c2
      ensures x.target != y.target
    {
      assert x.target[|destDir|] == w1.entry.name;
      assert y.target[|destDir|] == w2.entry.name;
    }
    DeliverCommutes(c1, c2);
  }
}

=== FILE: strings.dfy ===
/** The handful of Python string operations the scripts rely on, with
    Python's meaning: the substring test `t in s`, `s.replace(tok, '')`,
    `s.split(sep)[0]`, ASCII lower-casing, and `s.split(c)[-1]`. */
module Strings {

  /** `s` begins with `p`. */
  predicate StartsWith(s: string, p: string) {
    |p| <= |s| && s[..|p|] == p
  }

  /** `s` ends with `p`. */
  predicate EndsWith(s: string, p: string) {
    |p| <= |s| && s[|s| - |p|..] == p
  }

  /** Python's `t in s`: `t` occurs somewhere in `s` as one contiguous block. */
  predicate Contains(s: string, t: string)
    decreases |s|
  {
    StartsWith(s, t) || (|s| > 0 && Contains(s[1..], t))
  }

  /** A block that is longer than the text cannot occur in it. */
  lemma {:induction false} ShorterNotContained(s: string, t: string)
    requires |s| < |t|
    ensures !Contains(s, t)
    decreases |s|
  {
    if |s| > 0 {
      ShorterNotContained(s[1..], t);
    }
  }

  /** `Contains` agrees with the positional reading: `t` starts at some index of `s`. */
  lemma {:induction false} ContainsIffOccursAt(s: string, t: string)
    ensures Contains(s, t) <==> exists j :: 0 <= j <= |s| && StartsWith(s[j..], t)
    decreases |s|
  {
    if StartsWith(s, t) {
      assert s[0..] == s;
    }
    if |s| > 0 {
      ContainsIffOccursAt(s[1..], t);
      if exists j :: 0 <= j <= |s| && StartsWith(s[j..], t) {
        var j :| 0 <= j <= |s| && StartsWith(s[j..], t);
        if j > 0 {
          assert s[1..][j - 1..] == s[j..];
        }
      }
      if Contains(s[1..], t) {
        var j :| 0 <= j <= |s| - 1 && StartsWith(s[1..][j..], t);
        assert s[1..][j..] == s[j + 1..];
        assert StartsWith(s[j + 1..], t);
      }
    } else {
      assert s[0..] == s;
    }
  }

  /** Python's `s.replace(tok, '')` for a non-empty `tok`: scanning from the
      left, every non-overlapping occurrence of `tok` is dropped. The result
      equals `s` exactly when `tok` does not occur in `s`, and each removal
      shortens the text by `|tok|`. */
  function RemoveAll(s: string, tok: string): (r: string)
    requires tok != []
    ensures |r| <= |s|
    ensures Contains(s, tok) ==> |r| <= |s| - |tok|
    ensures r == s <==> !Contains(s, tok)
    decreases |s|
  {
    if |s| < |tok| then
      ShorterNotContained(s, tok);
      s
    else if s[..|tok|] == tok then
      RemoveAll(s[|tok|..], tok)
    else
      [s[0]] + RemoveAll(s[1..], tok)
  }

  /** Python's `s.split(sep)[0]` for a non-empty `sep`: the text before the
      first occurrence of `sep`, or all of `s` when `sep` does not occur. */
  function CutAt(s: string, sep: string): (r: string)
    requires sep != []
    ensures |r| <= |s| && r == s[..|r|]
    ensures forall j :: 0 <= j < |r| ==> !StartsWith(s[j..], sep)
    ensures |r| < |s| ==> StartsWith(s[|r|..], sep)
    decreases |s|
  {
    if StartsWith(s, sep) then []
    else if |s| == 0 then []
    else
      var rest := CutAt(s[1..], sep);
      assert forall j :: 1 <= j <= |s| ==> s[j..] == s[1..][j - 1..];
      [s[0]] + rest
  }

  /** The text kept by `CutAt` never contains the separator. */
  lemma CutAtLacksSeparator(s: string, sep: string)
    requires sep != []
    ensures !Contains(CutAt(s, sep), sep)
  {
    var r := CutAt(s, sep);
    forall j | 0 <= j <= |r|
      ensures !StartsWith(r[j..], sep)
    {
      if j < |r| && |sep| <= |r| - j {
        assert r[j..][..|sep|] == s[j..][..|sep|];
      }
    }
    ContainsIffOccursAt(r, sep);
  }

  /** `CutAt` returns its input unchanged exactly when the separator is absent. */
  lemma CutAtWhole(s: string, sep: string)
    requires sep != []
    ensures CutAt(s, sep) == s <==> !Contains(s, sep)
  {
    var r := CutAt(s, sep);
    ContainsIffOccursAt(s, sep);
    if r == s {
      CutAtLacksSeparator(s, sep);
    } else {
      assert StartsWith(s[|r|..], sep);
    }
  }

  /** Cutting twice is cutting once. */
  lemma CutAtIdempotent(s: string, sep: string)
    requires sep != []
    ensures CutAt(CutAt(s, sep), sep) == CutAt(s, sep)
  {
    CutAtLacksSeparator(s, sep);
    CutAtWhole(CutAt(s, sep), sep);
  }

  /** ASCII lower-casing of one character. */
  function LowerChar(c: char): char {
    if 'A' <= c <= 'Z' then (c as int + 32) as char else c
  }

  /** ASCII lower-casing of a string, character by character. */
  function Lower(s: string): (r: string)
    ensures |r| == |s|
  {
    seq(|s|, i requires 0 <= i < |s| => LowerChar(s[i]))
  }

  /** Python's `s.split(c)[-1]`: the longest tail of `s` free of `c`, which
      is all of `s` when `c` is absent and otherwise starts right after the
      last `c`. */
  function AfterLast(s: string, c: char): (r: string)
    ensures |r| <= |s| && r == s[|s| - |r|..]
    ensures c !in r
    ensures |r| < |s| ==> s[|s| - |r| - 1] == c
    decreases |s|
  {
    if |s| == 0 then ""
    else if s[|s| - 1] == c then ""
    else
      var init := s[..|s| - 1];
      var r := AfterLast(init, c);
      assert s == init + [s[|s| - 1]];
      assert s[|s| - |r| - 1..] == init[|init| - |r|..] + [s[|s| - 1]];
      r + [s[|s| - 1]]
  }
}

=== FILE: tree.dfy ===
/** A directory tree as an immutable value, and the traversals the scripts
    perform on it: `iterdir()` (the children of one directory, in listing
    order) and `rglob("*")` (every entry below a directory, files and
    directories alike). */
module Tree {
  /** One directory entry: a plain file, or a directory with its listing. */
  datatype Entry = File(name: string) | Dir(name: string, children: seq<Entry>)

  /** An entry together with its path, the components from the scanned root
      down to and including the entry's own name: what a `pathlib.Path`
      yielded by a traversal denotes. */
  datatype Located = Located(path: seq<string>, entry: Entry)

  /** No element of `s` occurs twice, as in one directory listing. */
  predicate Distinct<T(==)>(s: seq<T>) {
    forall i, j :: 0 <= i < j < |s| ==> s[i] != s[j]
  }

  /** The names of a listing, in order. */
  function NamesOf(cs: seq<Entry>): (r: seq<string>)
    ensures |r| == |cs|
    ensures forall i :: 0 <= i < |cs| ==> r[i] == cs[i].name
  {
    seq(|cs|, i requires 0 <= i < |cs| => cs[i].name)
  }

  /** A listing as a real directory has it: no name twice at any level. */
  predicate WellFormed(cs: seq<Entry>)
    decreases cs
  {
    && Distinct(NamesOf(cs))
    && forall i :: 0 <= i < |cs| ==> (cs[i].Dir? ==> WellFormed(cs[i].children))
  }

  /** `[d for d in dir.iterdir() if d.is_dir()]`: the directories of a
      listing, each located under `at`. */
  function SubDirs(at: seq<string>, cs: seq<Entry>): (r: seq<Located>)
    ensures forall x :: x in r ==> x.entry in cs && x.entry.Dir? && x.path == at + [x.entry.name]
    ensures forall e :: e in cs && e.Dir? ==> Located(at + [e.name], e) in r
    ensures |r| <= |cs|
  {
    if cs == [] then []
    else
      (if cs[0].Dir? then [Located(at + [cs[0].name], cs[0])] else [])
      + SubDirs(at, cs[1..])
  }

  /** The entries of one listing, each located under `at`, in listing
      order. */
  function Listing(at: seq<string>, cs: seq<Entry>): (r: seq<Located>)
    ensures |r| == |cs|
    ensures forall i :: 0 <= i < |cs| ==> r[i] == Located(at + [cs[i].name], cs[i])
  {
    seq(|cs|, i requires 0 <= i < |cs| => Located(at + [cs[i].name], cs[i]))
  }

  /** `x` lies strictly below `at`, and its path ends in its own name. */
  predicate Under(x: Located, at: seq<string>) {
    |x.path| > |at| && x.path[..|at|] == at && x.path[|x.path| - 1] == x.entry.name
  }

  /** `x` is an entry of the tree whose root listing, at `at`, is `cs`: a
      child located at `at/<name>`, or an entry of a subdirectory's tree. */
  predicate InTree(x: Located, at: seq<string>, cs: seq<Entry>)
    decreases cs
  {
    exists e :: e in cs && (x == Located(at + [e.name], e) || (e.Dir? && InTree(x, at + [e.name], e.children)))
  }

  /** An entry of the tree of a listing's tail is an entry of the tree of
      the listing. */
  lemma InTreeTail(x: Located, at: seq<string>, cs: seq<Entry>)
    requires cs != [] && InTree(x, at, cs[1..])
    ensures InTree(x, at, cs)
  {
    var e :| e in cs[1..] && (x == Located(at + [e.name], e) || (e.Dir? && InTree(x, at + [e.name], e.children)));
    assert e in cs;
  }

  /** The traversal yields exactly the entries of the tree. */
  lemma {:induction false} WalkIsTree(x: Located, at: seq<string>, cs: seq<Entry>)
    ensures x in Walk(at, cs) <==> InTree(x, at, cs)
    decreases cs
  {
    if InTree(x, at, cs) {
      var e :| e in cs && (x == Located(at + [e.name], e) || (e.Dir? && InTree(x, at + [e.name], e.children)));
      if x != Located(at + [e.name], e) {
        WalkIsTree(x, at + [e.name], e.children);
      }
    }
  }

  /** `Path(at).rglob("*")` for a directory at `at` whose listing is `cs`:
      the whole listing first, then the traversals of its subdirectories
      in listing order. Every result lies below `at`; every child is among
      the results, and so is everything in a subdirectory's traversal;
      nothing else is. */
  function Walk(at: seq<string>, cs: seq<Entry>): (r: seq<Located>)
    ensures |r| >= |cs|
    ensures forall i :: 0 <= i < |cs| ==> r[i] == Located(at + [cs[i].name], cs[i])
    ensures forall x :: x in r ==> Under(x, at)
    ensures forall e :: e in cs ==> Located(at + [e.name], e) in r
    ensures forall e, x :: e in cs && e.Dir? && x in Walk(at + [e.name], e.children) ==> x in r
    ensures forall x :: x in r ==> InTree(x, at, cs)
    decreases cs, 1
  {
    var top := Listing(at, cs);
    assert forall e :: e in cs ==> Located(at + [e.name], e) in top by {
      forall e | e in cs
        ensures Located(at + [e.name], e) in top
      {
        var i :| 0 <= i < |cs| && cs[i] == e;
        assert top[i] == Located(at + [e.name], e);
      }
    }
    top + WalkBelow(at, cs)
  }

  /** The traversals of the subdirectories of a listing, one after the
      other, in listing order. */
  function WalkBelow(at: seq<string>, cs: seq<Entry>): (r: seq<Located>)
    ensures forall x :: x in r ==> Under(x, at)
    ensures forall e, x :: e in cs && e.Dir? && x in Walk(at + [e.name], e.children) ==> x in r
    ensures forall x :: x in r ==> InTree(x, at, cs)
    decreases cs, 0
  {
    if cs == [] then []
    else
      var e := cs[0];
      var here := if e.Dir? then Walk(at + [e.name], e.children) else [];
      var rest := WalkBelow(at, cs[1..]);
      forall x | x in here
        ensures Under(x, at)
      {
        UnderParent(x, at, e.name);
      }
      assert forall d :: d in cs ==> d == e || d in cs[1..];
      forall x | x in here + rest
        ensures InTree(x, at, cs)
      {
        if x in here {
          assert e in cs;
        } else {
          InTreeTail(x, at, cs);
        }
      }
      here + rest
  }

  /** What lies below `at/name` lies below `at`. */
  lemma UnderParent(x: Located, at: seq<string>, name: string)
    requires Under(x, at + [name])
    ensures Under(x, at)
  {
    assert x.path[..|at|] == x.path[..|at| + 1][..|at|];
  }

  /** An entry of the tree lies below `at`, and the component right after
      `at` is the name of one of the listed entries. */
  lemma {:induction false} InTreeNext(x: Located, at: seq<string>, cs: seq<Entry>)
    requires InTree(x, at, cs)
    ensures |x.path| > |at| && x.path[..|at|] == at
    ensures exists d :: d in cs && x.path[|at|] == d.name
    decreases cs
  {
    var e :| e in cs && (x == Located(at + [e.name], e) || (e.Dir? && InTree(x, at + [e.name], e.children)));
    if x != Located(at + [e.name], e) {
      InTreeNext(x, at + [e.name], e.children);
      assert x.path[..|at| + 1] == (at + [e.name])[..|at| + 1];
      assert x.path[..|at|] == x.path[..|at| + 1][..|at|];
    }
  }

  /** What the subdirectory traversals yield lies at least two levels below
      `at`, deeper than any entry of the listing itself. */
  lemma {:induction false} BelowDeeper(at: seq<string>, cs: seq<Entry>)
    ensures forall x :: x in WalkBelow(at, cs) ==> |x.path| > |at| + 1
    decreases cs
  {
    if cs != [] {
      BelowDeeper(at, cs[1..]);
    }
  }

  /** A well-formed listing's tail is well-formed. */
  lemma WellFormedTail(cs: seq<Entry>)
    requires cs != [] && WellFormed(cs)
    ensures WellFormed(cs[1..])
  {
    forall i, j | 0 <= i < j < |cs| - 1
      ensures NamesOf(cs[1..])[i] != NamesOf(cs[1..])[j]
    {
      assert NamesOf(cs[1..])[i] == NamesOf(cs)[i + 1];
      assert NamesOf(cs[1..])[j] == NamesOf(cs)[j + 1];
    }
    forall i | 0 <= i < |cs| - 1 && cs[1..][i].Dir?
      ensures WellFormed(cs[1..][i].children)
    {
      assert cs[1..][i] == cs[i + 1];
    }
  }

  /** Two sequences without repeats and without a common element join into
      one without repeats. */
  lemma DistinctConcat<T>(a: seq<T>, b: seq<T>)
    requires Distinct(a) && Distinct(b)
    requires forall x, y :: x in a && y in b ==> x != y
    ensures Distinct(a + b)
  {
    forall i, j | 0 <= i < j < |a + b|
      ensures (a + b)[i] != (a + b)[j]
    {
      if j < |a| {
        assert (a + b)[i] == a[i] && (a + b)[j] == a[j];
      } else if i < |a| {
        assert (a + b)[i] == a[i] && (a + b)[j] == b[j - |a|];
        assert a[i] in a && b[j - |a|] in b;
      } else {
        assert (a + b)[i] == b[i - |a|] && (a + b)[j] == b[j - |a|];
      }
    }
  }

  /** In a well-formed tree, `rglob("*")` yields every entry exactly once. */
  lemma {:induction false} WalkDistinct(at: seq<string>, cs: seq<Entry>)
    requires WellFormed(cs)
    ensures Distinct(Walk(at, cs))
    decreases cs, 1
  {
    var top := Listing(at, cs);
    var below := WalkBelow(at, cs);
    forall i, j | 0 <= i < j < |top|
      ensures top[i] != top[j]
    {
      assert NamesOf(cs)[i] != NamesOf(cs)[j];
      assert top[i].path[|at|] == cs[i].name;
      assert top[j].path[|at|] == cs[j].name;
    }
    WalkBelowDistinct(at, cs);
    BelowDeeper(at, cs);
    forall x, y | x in top && y in below
      ensures x != y
    {
      var i :| 0 <= i < |top| && top[i] == x;
      assert |x.path| == |at| + 1;
    }
    DistinctConcat(top, below);
  }

  /** The subdirectory traversals of a well-formed listing never yield an
      entry twice: each is distinct, and two of them lie below different
      names. */
  lemma {:induction false} WalkBelowDistinct(at: seq<string>, cs: seq<Entry>)
    requires WellFormed(cs)
    ensures Distinct(WalkBelow(at, cs))
    decreases cs, 0
  {
    if cs != [] {
      var e := cs[0];
      var here := if e.Dir? then Walk(at + [e.name], e.children) else [];
      var rest := WalkBelow(at, cs[1..]);
      assert WalkBelow(at, cs) == here + rest;
      if e.Dir? {
        assert WellFormed(e.children);
        WalkDistinct(at + [e.name], e.children);
      }
      WellFormedTail(cs);
      WalkBelowDistinct(at, cs[1..]);
      forall x, y | x in here && y in rest
        ensures x != y
      {
        assert e.Dir? && Under(x, at + [e.name]);
        UnderNext(x, at, e.name);
        HeadApart(x, y, at, cs);
      }
      DistinctConcat(here, rest);
    }
  }

  /** Below a listing with distinct names, an entry under the first name is
      not an entry of the tree of the rest. */
  lemma HeadApart(x: Located, y: Located, at: seq<string>, cs: seq<Entry>)
    requires cs != [] && Distinct(NamesOf(cs))
    requires |x.path| > |at| && x.path[|at|] == cs[0].name
    requires InTree(y, at, cs[1..])
    ensures x != y
  {
    InTreeNext(y, at, cs[1..]);
    var d :| d in cs[1..] && y.path[|at|] == d.name;
    var j :| 0 <= j < |cs| - 1 && cs[1..][j] == d;
    assert NamesOf(cs)[0] != NamesOf(cs)[j + 1];
  }

  /** What lies below `at/name` has `name` right after `at`. */
  lemma UnderNext(x: Located, at: seq<string>, name: string)
    requires Under(x, at + [name])
    ensures x.path[|at|] == name
  {
    assert x.path[|at|] == x.path[..|at| + 1][|at|];
  }

  /** `rglob("*")` of a located directory. */
  function Descendants(d: Located): seq<Located>
    requires d.entry.Dir?
  {
    Walk(d.path, d.entry.children)
  }

  /** Every descendant's path extends its ancestor's and ends in its own name. */
  lemma DescendantPath(d: Located, x: Located)
    requires d.entry.Dir? && x in Descendants(d)
    ensures |x.path| > |d.path| && x.path[..|d.path|] == d.path
    ensures x.path[|x.path| - 1] == x.entry.name
  {
    assert Under(x, d.path);
  }

  /** In a listing with distinct names, a name determines its entry. */
  lemma SameNameSameEntry(cs: seq<Entry>, a: Entry, b: Entry)
    requires Distinct(NamesOf(cs))
    requires a in cs && b in cs && a.name == b.name
    ensures a == b
  {
    var i :| 0 <= i < |cs| && cs[i] == a;
    var j :| 0 <= j < |cs| && cs[j] == b;
    assert NamesOf(cs)[i] == NamesOf(cs)[j];
  }
}
